=== FILE: README.md ===
# Task API core in Dafny

A model of the request-handling core of a small Express task service.

The service has two parts:

- **Owner-scoped tasks on Postgres** (`tasks.ts`). These are list, get, create, update and delete. The list filters by the caller's `user_id` only. Create is a plain `INSERT` whose owner is the caller. Get, update and delete filter by both the caller's `user_id` and the task `id`. The update builds its `SET` clause from the raw body keys.
- **In-memory tasks** (`local_tasks.ts`). This is an array with create (`max + 1` ids), a `??` merge update, and delete through `splice`.

Around the tasks sit four more pieces:

- the JWT gate, signup and login (`auth.ts`);
- the error classifier (`middleware/errorHandler.ts`);
- the zod schemas (`tasks_schema.ts`, `auth_schema.ts`);
- the validation middleware (`middleware/validate.ts`).

## How the model is built

A table is a `seq<Row>` and every route is a pure function over it. Each route returns the new table and a `Result`.

The Postgres behaviour the handlers rely on is written out explicitly:

| Behaviour | Where | Modelled as |
|---|---|---|
| Owner filter | `WHERE user_id = … AND id = …` | `TaskRows.Owned` |
| `ORDER BY id` | list | an insertion sort, proved to be the unique ascending arrangement |
| `LIMIT`/`OFFSET` | list | `Tasks.Window` |
| `COUNT(*) OVER()` | list | the per-row total |
| Primary key | `id` | SQLSTATE 23505 |
| Unknown column | update | SQLSTATE 42703 |
| Parameter text an `integer`, `bigint` or `boolean` parameter cannot read, including the `"NaN"` sent for a failed `parseInt` | every route | SQLSTATE 22P02 (`Postgres.Input`) |
| A number beyond the parameter type's range | every route | SQLSTATE 22003 (`Postgres.Input`) |
| A text parameter holding U+0000, refused by the encoding check before any type sees it | create, update | SQLSTATE 22021 (`Postgres.Input`) |
| `null` into a NOT NULL column, raised only when a row matches | update | SQLSTATE 23502 |
| Negative `OFFSET` | list | SQLSTATE 2201X |
| Negative `LIMIT` | list | SQLSTATE 2201W |

External libraries become function-typed parameters:

| Library | Parameter |
|---|---|
| bcrypt `hash`, `compare` | `hash`, `compare` |
| `jwt.sign` | `sign` |
| `jwt.verify` | `verify`, returning verified claims, expired, or malformed |
| zod's email check | `isEmail` |
| zod's default issue messages | `defaults` |

How a value reaches the database is modelled in `Postgres`. node-postgres sends `null` as NULL and every other value as text: a number as JavaScript's `String(n)`, which switches to exponent form from 10^21 on, a boolean as `true`/`false`, an array or object as its own text. The server then converts each parameter with its type's input function, in placeholder order, and the first failure fails the statement. NULL binds to every type.

The table definition is not part of the source, so the model assumes one:

| Column | Type | NULL allowed |
|---|---|---|
| `id` | `integer` | no |
| `title` | `text` | no |
| `description` | `text` | yes |
| `completed` | `boolean` | no |
| `user_id` | `integer` | no |

The `users` table is assumed to have the primary key `id` and a UNIQUE constraint on `email`. A taken email is then 23505, which the signup's answer relies on (`Auth.SignupDoesNotRevealExistingEmail`).

`LIMIT` and `OFFSET` parameters are `bigint`. The server checks every text parameter against the UTF-8 encoding first, and that check refuses U+0000 with 22021, whatever the parameter's type. A text column takes every other text as it is, so a number sent for `title` is stored as its digits. Only the zod schemas keep such values out, and only for the keys they check. The schemas do not refuse U+0000: a title `"ab\u0000c"` passes them and the statement fails with 22021.

Body values are JSON values, integers only. A body is its fields in `Object.keys` order. String lengths are counted in UTF-16 units, as JavaScript counts them.

The errors a handler throws are the `Errors.Thrown` variants. The error handler maps them to a status and a body.

## Model

| member | source | states |
|---|---|---|
| Js.Lookup | tasks.ts:113 | `body[key]` is defined exactly when some field has that key, and then it is the value of the first such field. |
| Js.Utf16Length | tasks_schema.ts:9-10 | A string's JavaScript length lies between its character count and twice that, and equals the count when no character is outside the Basic Multilingual Plane. |
| Postgres.Input | tasks.ts:130 | A parameter converts to a value of its type, or to NULL exactly when it is NULL. A text holding U+0000 is 22021 whatever the type, and only such a text is. A text parameter takes every other text as it is. Any other refusal is 22P02 or 22003. |
| Postgres.NumberInput | tasks.ts:47 | A number the handler sends binds to an integer parameter as itself when in range. Beyond the range it is 22003 while JavaScript writes digits, and 22P02 once it writes exponent form. |
| Postgres.DecimalRoundTrip | tasks.ts:47 | The decimal digits of a number read back as that number. |
| Postgres.SignedDecimalRoundTrip | tasks.ts:47 | A signed integer's decimal text reads back as the integer. |
| Postgres.ExponentTextIsNoInteger | tasks.ts:47 | The exponent form JavaScript uses from 10^21 on is never integer text. |
| Postgres.NaNIsRefused | tasks.ts:64-69 | The `"NaN"` sent for a failed `parseInt` is refused by an integer parameter with 22P02. |
| Postgres.BoolInput | tasks.ts:113 | A JSON boolean sent to a boolean parameter reads back as itself. |
| Postgres.BindAllMeaning | tasks.ts:130 | Binding succeeds exactly when every parameter converts, with the converted values in order. Otherwise it fails with the error of the first refused parameter. |
| Postgres.BindAllConcat | tasks.ts:121 | Binding two lists one after the other fails with the first list's error, else the second's, else yields both results. |
| Postgres.FirstError | tasks.ts:47 | No error exactly when every handler number binds. An error is 22P02 or 22003. |
| Postgres.ArgumentsBind | tasks.ts:47 | Binding the handler's numbers fails with the first argument's error, or yields each number as an integer. |
| Tasks.IntOrIsOr | tasks.ts:30-31 | The fallback rule on parsed numbers is JavaScript's `\|\|`, with NaN falsy. |
| Tasks.PageParameters | tasks.ts:30-34 | `page` and `limit` fall back to 1 and 10 exactly when the parse gives NaN or 0. Any other value, negative included, passes through. The offset with no query is 0. |
| Tasks.PageRows | tasks.ts:37-48 | The page holds only the caller's rows, in strictly ascending id order, each carrying the caller's total row count. It is the slice `[offset, offset+limit)` of the caller's ordered rows, with the length that slice has. |
| Tasks.Window | tasks.ts:44 | `LIMIT`/`OFFSET` keep `min(limit, n - offset)` rows, none past the end, and row k is row offset + k. |
| Tasks.List | tasks.ts:28-58 | An owner, limit or offset that does not bind is that database error (22003 for an out-of-range number). Then a negative offset or limit is a database error (offset checked first). An empty page is the 404 "No tasks found", never an empty success. A page starting inside the caller's rows is always answered with `{page, limit, data}` holding that page. |
| Tasks.ListBindsInRange | tasks.ts:42-47 | The list parameters bind exactly when the owner is in the `integer` range and limit and offset in the `bigint` range. |
| Tasks.ListRank | tasks.ts:39-44 | The k-th row returned has exactly offset + k of the caller's rows before it in id order. |
| TaskRows.Owned | tasks.ts:42 | The filter `user_id = $1` keeps exactly the rows of that owner, and their distinct ids. |
| TaskRows.SortById | tasks.ts:43-44 | `ORDER BY id` gives a strictly ascending arrangement of the same rows. |
| TaskRows.AscendingArrangementUnique | tasks.ts:43-44 | Two strictly ascending sequences with the same members are equal, so the order the list sees is determined. |
| Tasks.FindOwned | tasks.ts:67-69 | The first row matching both the caller and the id, or -1 exactly when none matches. |
| Tasks.KeyErrorCases | tasks.ts:64-69 | Owner and id bind exactly when both are numbers in the `integer` range. The owner's error comes first, a NaN id is 22P02, and an out-of-range id is 22003 or 22P02 as JavaScript writes it. |
| Tasks.LocateOwned | tasks.ts:67-69 | The key error when owner or id does not bind. Otherwise the index of the caller's row with that id, or -1. |
| Tasks.KeysBind | tasks.ts:69 | The owner and id bind as themselves, or fail with the key error. |
| Tasks.Get | tasks.ts:63-75 | An owner or id that does not bind is that database error, so a NaN id is a 22P02 and not a 404. The 404 "Task not found" comes exactly when no row matches both owner and id. When one matches, that row is the reply. A returned row is in the table and matches both. |
| Tasks.OthersTasksAreNotFound | tasks.ts:67-73 | Another account's task is never returned to the caller. It is "not found" whenever the keys bind. |
| Tasks.CreateBinds | tasks.ts:84-86 | The INSERT binds title, description and owner in that order. U+0000 in either text is 22021. Otherwise the parameters bind exactly when the owner is in the `integer` range, and an out-of-range owner is its number error. |
| Tasks.Create | tasks.ts:80-90 | A title or description holding U+0000 is 22021 with the table unchanged. Then an owner outside the `integer` range is a database error. The new row takes its owner from the caller, never from the body. Its title and description come from the body, and `completed` starts false. A taken id is a 23505 with the table unchanged. Otherwise exactly the new row is appended. |
| Tasks.CreateThenGet | tasks.ts:84-89 | When the title and description hold no U+0000, the row a create returns is what a get of its id returns to the same caller. |
| Tasks.CreateKeepsOtherOwnersRows | tasks.ts:83-86 | Creating changes no other account's rows. |
| Tasks.Delete | tasks.ts:140-151 | An owner or id that does not bind is that database error. With no match, the 404 leaves the table unchanged. Otherwise exactly the matching row is removed, every other row survives, and the reply is `{message: "Task deleted successfully", result: <removed row>}`. |
| Tasks.DeleteKeepsOtherOwnersRows | tasks.ts:143-149 | Deleting changes no other account's rows. |
| TaskUpdate.BuildUpdate | tasks.ts:100-121 | Key i is written from `$(i+1)`, which carries the driver's text for `updates[key_i]`. The caller and the task id are `$(n+1)` and `$(n+2)`, the last two of n+2 values. |
| TaskUpdate.ToRow | tasks.ts:123-128 | A well-typed draft row can be stored exactly when no NOT NULL column holds NULL. |
| TaskUpdate.RowRoundTrip | tasks.ts:123-128 | A stored row read back as a draft and stored again is itself. |
| TaskUpdate.Execute | tasks.ts:123-130 | A failing statement leaves the table unchanged. No match leaves it unchanged too. Ids stay distinct. |
| TaskUpdate.BodyBindError | tasks.ts:113 | No error exactly when every body value converts to its column's type. An error is the conversion error of some field. |
| TaskUpdate.UpdateBindError | tasks.ts:121 | The binding error of the whole list is 22021, 22P02 or 22003. |
| TaskUpdate.MergeNulls | tasks.ts:123-128 | The merge of a body that binds is well typed, and cannot be stored exactly when the body sends `null` for `id`, `title`, `completed` or `user_id`. |
| TaskUpdate.Merged | tasks.ts:123-128 | The stored merge reads back as the column-wise merge, and every column the body does not name keeps its value. |
| TaskUpdate.MergedValues | tasks.ts:113-128 | A number in range goes into `id` or `user_id` as itself. A string goes into `title` or `description` as it is, and a number into them as its digits. A boolean goes into `completed`, and `null` empties the description. |
| TaskUpdate.ApplySetIsMerge | tasks.ts:108-113 | Running the SET clause with the values built beside it is the column-wise merge of the body into the row. |
| TaskUpdate.ClauseColumns | tasks.ts:108-110 | The clause's keys name columns exactly when the body's keys do. |
| TaskUpdate.BodyBinds | tasks.ts:113 | Binding the body's values fails with the first refused value, or yields each value converted to its column. |
| TaskUpdate.BuiltBinds | tasks.ts:113-121 | The built list fails with the body's error, else the owner's or the id's. Otherwise it yields the body's values and then the owner and id as integers. |
| TaskUpdate.BuiltUpdateRuns | tasks.ts:100-130 | The statement built from a body does to the table what the body-level description of the update says. |
| TaskUpdate.Update | tasks.ts:93-136 | An empty body is a 400 before any query. A non-column key is 42703. Then the first parameter that does not bind (body values, owner, id) is 22021, 22P02 or 22003. No owned match is 404. A match whose merge puts `null` in a NOT NULL column is 23502. Otherwise the matched row becomes its merge with the body, unless the merge takes another task's id (23505). Every failure leaves the table unchanged. |
| TaskUpdate.UpdateBindsInRange | tasks.ts:113-130 | The update's parameters bind exactly when the body's values fit their columns and owner and id are numbers in the `integer` range. |
| TaskUpdate.UpdateKeepsOtherOwnersRows | tasks.ts:123-128 | A body that does not name `user_id` changes no other account's rows. |
| TaskUpdate.KeyColumnMerge | tasks.ts:108-113 | A one-field body `{"id": n}` or `{"user_id": n}` with n in range binds and changes only that column. |
| TaskUpdate.KeyColumnBodyPasses | middleware/validate.ts:8-14 | A body holding one number under a key the update schema does not check, such as `user_id` or `id`, passes validation and reaches the handler. |
| TaskUpdate.UpdateReassignsOwner | tasks.ts:97-113 | The handler writes a body `{"user_id": n}`: the caller's task passes to account n, every other field unchanged. |
| TaskUpdate.UpdateRenumbersTask | tasks.ts:97-113 | The handler writes a body `{"id": n}` when no row holds n: the caller's task is renumbered to n. |
| TaskUpdate.TaskChangesHands | tasks.ts:93-135 | After `{"user_id": 8}` on account 7's task 1, account 7 gets 404 for task 1 and account 8 gets the task. |
| TaskUpdate.AllowListed | tasks_schema.ts:17-27 | The body restricted to the keys the update schema checks keeps exactly those fields. |
| TaskUpdate.AllowListedLookup | tasks_schema.ts:17-27 | The restriction keeps the value of every key the schema checks. |
| TaskUpdate.UpdateWithoutKeyColumns | tasks.ts:123-128 | A body naming neither `id` nor `user_id` cannot hit the primary key. It rewrites only the matched row, keeping its id and owner. |
| TaskUpdate.UpdateAllowListed | tasks.ts:93-136 | The corrected update answers 400 when no checked key is left and never hits the primary key. A kept value, owner or id that does not bind is that database error. With binding keys and values it is a 404 exactly when the caller has no such task. When there is one, it is 23502 if a kept field sends `null` for the title or completed (the raw body `{"title": null}`, say), and succeeds otherwise. On success it keeps the task's id and owner and writes the merge of the kept fields. A failure changes nothing. |
| TaskUpdate.ValidatedMerge | tasks_schema.ts:17-27 | For a body the update schema accepted, the kept fields send no `null` to a NOT NULL column. They bind exactly when the title and description hold no U+0000, and then the merge writes exactly the validated title, description and completed. |
| TaskUpdate.ValidatedBindError | tasks.ts:121-130 | For a body the update schema accepted, the first kept value that does not bind is 22021 when the title or description holds U+0000, and there is none otherwise. |
| TaskUpdate.ValidatedUpdate | tasks.ts:93-136 | After validation, the corrected update on the caller's task returns the task with exactly the validated values written. A title or description holding U+0000 passes the schema and is 22021 instead, with the table unchanged. |
| TaskUpdate.AllowListedKeepsOtherOwnersRows | tasks.ts:123-128 | The corrected update changes no other account's rows. |
| TaskSchema.CreateIssues | tasks_schema.ts:3-15 | No issues exactly when the title is a string of 3..100 units and any description is a string of at most 500. Issues name only title and description. |
| TaskSchema.UpdateIssues | tasks_schema.ts:17-27 | No issues exactly when any title has 3..100 units, any description at most 500, and any `completed` is a boolean. Issues name only schema keys. |
| TaskSchema.EmptyBodies | tasks_schema.ts:17-27 | `{}` passes the update schema and fails the create schema. |
| TaskSchema.UnknownKeysPassUpdate | tasks_schema.ts:17-27 | A valid update body stays valid with any extra key the schema does not name, whatever its value. |
| TaskSchema.CreateBodyIsUpdateBody | tasks_schema.ts:3-27 | A valid create body without `completed` is a valid update body. |
| Zod.StringIssuesEmptyIff | tasks_schema.ts:19-22 | A string check reports nothing exactly when its bounds hold, and reports only its own field. |
| AuthSchema.SignUpIssues | auth_schema.ts:3-9 | No issues exactly when the email passes the email check and the password has 8..100 units. A missing email or password yields an issue naming it. |
| AuthSchema.LoginIssues | auth_schema.ts:12 | The login checks are the signup checks. |
| Validation.FieldOf | middleware/validate.ts:20 | An entry's field is `path[1]` when that is truthy, else `path[0]`. |
| Validation.Validate | middleware/validate.ts:4-28 | `next()` exactly when the parse succeeds. On a zod error the reply is 400 with one entry per issue, in order, each with its message and field. Any other error is forwarded unchanged. |
| Validation.BodySchemaOutcome | middleware/validate.ts:8-23 | For a body schema, `next()` comes exactly when the body checks report nothing. Each 400 entry then names the body field of its issue. |
| ErrorHandler.Classify | middleware/errorHandler.ts:5-42 | Cases are checked in order: AppError, JWT error, 23505, fallback. An AppError keeps its status and message. A JWT error is 401 "Token expired" or "Invalid token". 23505 is the 201 registration message. Everything else is 500. It shows the error's own message exactly when in development and the value is an `Error`, and "Internal Server Error" otherwise. |
| ErrorHandler.UnauthorizedExactly | middleware/errorHandler.ts:17-21 | The reply is 401 exactly for a JWT error or an AppError carrying 401. |
| ErrorHandler.InternalsHiddenOutsideDevelopment | middleware/errorHandler.ts:35-41 | Outside development, no non-AppError reply carries anything but one of the fixed texts. |
| ErrorHandler.TokenCheckPrecedesDuplicateCheck | middleware/errorHandler.ts:17-32 | A JWT error with code 23505 is still answered as a token error. |
| Auth.Split | auth.ts:45 | `split(" ")` gives at least one piece, none containing a space, and one piece exactly when there is no space. |
| Auth.JoinOfSplit | auth.ts:45 | Joining the pieces back with the separator gives the header. |
| Auth.SplitOfJoin | auth.ts:45 | Splitting space-free pieces joined by spaces gives the pieces back. |
| Auth.SplitAtFirstSeparator | auth.ts:45 | The first piece is the text before the first space, and the rest is the split of what follows. |
| Auth.SplitWithoutSeparator | auth.ts:45 | Text without a space splits into itself. |
| Auth.BearerToken | auth.ts:44-45 | A token exists exactly when the header has a space, and it contains no space. |
| Auth.BearerTokenOfHeader | auth.ts:44-49 | For `<scheme> <token>…` the token is the second piece, whatever the scheme word. |
| Auth.AuthGate | auth.ts:43-55 | A missing header or an empty second piece is 401 "No Token Provided". Otherwise the caller is authenticated exactly when the token verifies, and then as the verified claims, with no store lookup. |
| Auth.GateRejectionsAreUnauthorized | auth.ts:47-51 | Every rejection by the gate is answered 401, with messages that tell no token, expired and malformed apart. |
| Auth.InsertUser | auth.ts:66-67 | The insert adds exactly the new row, or refuses a taken email or id with 23505 and changes nothing. |
| Auth.SignupReply | auth.ts:69-75 | A returned row gives the 201 registration message, and zero rows give the 500 "Failed to create user". |
| Auth.Signup | auth.ts:60-77 | The stored hash is `hash(password, 10)`. A taken email is 23505 with no new account. Otherwise exactly one account is added. |
| Auth.SignupDoesNotRevealExistingEmail | middleware/errorHandler.ts:28-32 | Together with the error handler, a signup for a taken email gets the same 201 reply as a new one and adds no account. |
| Auth.FindByEmail | auth.ts:87-89 | An account is found exactly when one has that email, and it is one of them. |
| Auth.Login | auth.ts:81-112 | Compare runs once, on the account's hash or on the dummy hash. Login fails exactly when there is no account or compare says no, always with the one 401 message. On success the token signs `{userId, email}` with the secret and "1h". |
| Auth.LoginFailuresIndistinguishable | auth.ts:84-102 | Any two failed logins have the same outcome. |
| Auth.SignupThenLogin | auth.ts:60-112 | After a fresh signup, logging in with the same credentials issues a token for the new account. |
| Auth.LoginThenGate | auth.ts:105-109 | The token a login issues, sent as `Bearer <token>`, authenticates that account. |
| LocalTasks.FindIndex | local_tasks.ts:65 | The first index with that id, or -1 exactly when there is none or the id is NaN. |
| LocalTasks.MaxId | local_tasks.ts:48 | The largest id in a non-empty array, and one that occurs in it. |
| LocalTasks.NextId | local_tasks.ts:48-50 | The new id exceeds every existing id by at least one, is exactly one past an existing id, and is 1 for an empty array. |
| LocalTasks.List | local_tasks.ts:29-31 | The reply is 200 with the whole array, every task in its place. |
| LocalTasks.ListAgreesWithGet | local_tasks.ts:29-43 | With distinct ids, the list holds a task with an id exactly when fetching that id answers 200, and the fetch answers with that task. |
| LocalTasks.CreateThenList | local_tasks.ts:29-57 | After a create, the list is the previous list with the created task at the end. |
| LocalTasks.Get | local_tasks.ts:34-43 | The 404 text comes exactly when no task has the id. Otherwise the reply is 200 with a task of that id, the only one when ids are distinct. |
| LocalTasks.Create | local_tasks.ts:46-57 | Exactly one task is appended and the others are unchanged. Its id is the next id, one past the largest, and it has the body's title. Its description is the body's when truthy, else null. `completed` is false. Ids stay distinct. |
| LocalTasks.Update | local_tasks.ts:60-87 | A missing id gives 404 with the array unchanged. Otherwise the reply is 200 with the update message only, and only that index changes. It keeps its id, and each field takes the body's value unless that is null or absent. |
| LocalTasks.UpdateIdempotent | local_tasks.ts:75-83 | Sending the same update twice is sending it once. |
| LocalTasks.Splice | local_tasks.ts:100 | `splice(start, count)` removes up to count elements from the start position on. The elements before and after keep their order. |
| LocalTasks.SpliceStart | local_tasks.ts:100 | `splice` starts at the given index, counting from the end when it is negative. |
| LocalTasks.SpliceOne | local_tasks.ts:100 | `splice(i, 1)` removes element i, and `splice(-1, 1)` removes the last element. |
| LocalTasks.Delete | local_tasks.ts:90-103 | A present id removes exactly that task. A missing id answers 404 and still removes the last task. |
| LocalTasks.DeleteMissingDropsLast | local_tasks.ts:95-100 | For any non-empty array with distinct ids, deleting a missing id answers 404 and the last task is gone. |
| LocalTasks.DeleteMissingFromInitial | local_tasks.ts:90-103 | From the starting array, deleting task 3 answers 404 and loses "Another Task". |
| LocalTasks.DeleteReturning | local_tasks.ts:93-100 | With a `return` after the 404, a missing id leaves the array alone. A present one removes exactly that task and keeps the rest in order, with ids still distinct. |
| LocalTasks.InitialIdsUnique | local_tasks.ts:14-17 | The starting array has distinct ids, and the next id is 3. |

## Left out

- Network, HTTP and the database connection are not modelled: Express routing, the `pg` pool, `app.listen`, helmet/cors and logging. Each route is a function of the table and the request values.
- bcrypt, `jwt.sign`, `jwt.verify` and its clock, and zod's email check are not modelled. They are uninterpreted parameters. The equal timing of the two login failure paths cannot be stated.
- Auth.Login: the dummy hash is not a well-formed 60-character bcrypt digest. Whether `compare` against it costs as much as a real comparison is outside the model.
- `parseInt` is not modelled. It is an `Option<int>` input, `None` for NaN. Its digit-prefix behaviour (`"12abc"` gives 12) is not modelled.
- JSON numbers are integers only. Arrays and objects are one case, carrying the text node-postgres would send for them. Floating point is not modelled.
- Parameter conversion is modelled for the five column types and the `bigint` of `LIMIT`/`OFFSET`, on the text node-postgres sends. Some input forms are not modelled: leading and trailing whitespace, underscores between digits, and `0x`/`0o`/`0b` prefixes, all of which the integer input functions of recent PostgreSQL versions accept. Also not modelled is the whitespace trimming of the boolean input function. Such texts are treated as refused.
- JavaScript numbers are unbounded integers here. Doubles above 2^53 round, and that rounding is not modelled: the number bound is the one in the request.
- The table definition is not part of the source. Its column types and NOT NULL constraints are the assumed ones listed above, and the `id` sequence's default is taken as given.
- Object key order is not modelled. The body's field order is taken as `Object.keys` gives it. JavaScript's rule that integer-like keys come first is not modelled.
- SQL text with keys that are not plain column names is not modelled. Such keys (quoted names, case variants, or text that is SQL syntax) are treated as unknown columns. Injection through a key is not modelled.
- The foreign key from `tasks.user_id` to `users.id` is not modelled. An update that reassigns a task to a non-existent account would be refused by it if the schema has one.
- Tasks.Create: requires the create schema to have accepted the body, as the route's validation middleware guarantees. The id Postgres draws from its sequence is an input within the `integer` range. Sequence exhaustion is not modelled.
- Auth.Signup: takes the email and password the schema accepted. The id the store draws is an input.
- The error handler actually mounted by the application is the inline one in `index.ts`. It answers `err.status || 500`, so an AppError thrown by a handler reaches the client as 500. This model follows `middleware/errorHandler.ts`. Its three-parameter signature would also make Express treat it as ordinary middleware if it were mounted.
- Zod's default issue messages are not modelled. They are a parameter (`defaults`). Only the custom messages the schemas set are fixed text.
- `express.json()` is not modelled. When the request has no JSON body, `req.body` is undefined and the handlers throw. This case is not modelled.
- local_tasks.ts is partly modelled. On the not-found paths the second write to the response throws "headers already sent". The update's success path writes twice as well (local_tasks.ts:85-86): the client receives only `{message}`, never the updated task, and the second `res.json` throws. The model keeps only the first reply and the array changes made before the throw.
- The `users` queries (auth.ts:66 and auth.ts:87) are not bound through `Postgres.Input`. The email reaches them only after the email check, which is a parameter here, and the password only as its bcrypt hash. A U+0000 in the email is therefore not modelled as 22021.
- A body key holding U+0000 is treated as an unknown column (42703). What the server reports for a statement text holding that character is not modelled.
- Tasks.List: the `total_count` column is carried as a separate field of each returned row.
- A NaN task id is not a 404. `parseInt` gives NaN, node-postgres sends it as the text "NaN", the `integer` parameter refuses it with 22P02, and the classifier answers 500.

## Findings

| source | as written | input that shows it | evidently intended | confidence | as-written member | corrected member |
|---|---|---|---|---|---|---|
| tasks.ts:97-113 | `validate` throws away zod's parsed body, so every raw body key becomes `key = $i` in the SET clause | `PUT /tasks/1` by account 7 with body `{"user_id": 8}` passes the schema and moves task 1 to account 8. `{"id": 99}` renumbers it. | only title, description and completed are written; id and owner stay fixed | high (not executed) | TaskUpdate.UpdateReassignsOwner | TaskUpdate.UpdateAllowListed |
| local_tasks.ts:95-100 | the 404 branch of delete has no `return`, so `tasks.splice(-1, 1)` runs | `DELETE /tasks/3` on the starting array answers 404 and removes "Another Task" | a missing id leaves the array unchanged | high (not executed) | LocalTasks.DeleteMissingFromInitial | LocalTasks.DeleteReturning |

=== FILE: auth.dfy ===
/**
 * Authentication (auth.ts): the gate that takes the bearer token from the
 * Authorization header and attaches the verified claims to the request,
 * signup, and login with its dummy-hash comparison and single failure
 * message. Password hashing, hash comparison, token signing and token
 * verification are the `hash`, `compare`, `sign` and `verify` parameters;
 * the users table is a sequence of rows.
 */
module Auth {
  import opened Wrappers
  import opened Errors
  import ErrorHandler

  /** The token payload `{ userId, email }`. */
  datatype Claims = Claims(userId: int, email: string)

  /** A row of the users table; the creation timestamp is not modelled. */
  datatype User = User(id: int, email: string, passwordHash: string)

  /* ----- The gate ----- */

  /** `s.split(sep)` for a one-character separator. */
  function Split(s: string, sep: char): (parts: seq<string>)
    ensures |parts| >= 1
    ensures forall i :: 0 <= i < |parts| ==> sep !in parts[i]
    ensures |parts| == 1 <==> sep !in s
    decreases |s|
  {
    if |s| == 0 then [""]
    else
      var rest := Split(s[1..], sep);
      if s[0] == sep then [""] + rest
      else [[s[0]] + rest[0]] + rest[1..]
  }

  /** `parts.join(sep)` */
  function Join(parts: seq<string>, sep: char): string
    requires |parts| >= 1
  {
    if |parts| == 1 then parts[0] else parts[0] + [sep] + Join(parts[1..], sep)
  }

  lemma {:induction false} JoinOfSplit(s: string, sep: char)
    ensures Join(Split(s, sep), sep) == s
    decreases |s|
  {
    if |s| > 0 {
      var rest := Split(s[1..], sep);
      JoinOfSplit(s[1..], sep);
      if s[0] != sep {
        if |rest| > 1 {
          assert ([[s[0]] + rest[0]] + rest[1..])[1..] == rest[1..];
        }
      }
      assert s == [s[0]] + s[1..];
    }
  }

  lemma {:induction false} SplitWithoutSeparator(a: string, sep: char)
    requires sep !in a
    ensures Split(a, sep) == [a]
    decreases |a|
  {
    if |a| > 0 {
      SplitWithoutSeparator(a[1..], sep);
      assert a == [a[0]] + a[1..];
    }
  }

  lemma {:induction false} SplitAtFirstSeparator(a: string, b: string, sep: char)
    requires sep !in a
    ensures Split(a + [sep] + b, sep) == [a] + Split(b, sep)
    decreases |a|
  {
    var s := a + [sep] + b;
    if |a| == 0 {
      assert s[1..] == b;
    } else {
      assert s[0] == a[0] && a[0] in a;
      assert s[1..] == a[1..] + [sep] + b;
      SplitAtFirstSeparator(a[1..], b, sep);
      var rest := Split(s[1..], sep);
      assert rest[0] == a[1..] && rest[1..] == Split(b, sep);
      assert a == [a[0]] + a[1..];
    }
  }

  lemma {:induction false} SplitOfJoin(parts: seq<string>, sep: char)
    requires |parts| >= 1
    requires forall i :: 0 <= i < |parts| ==> sep !in parts[i]
    ensures Split(Join(parts, sep), sep) == parts
    decreases |parts|
  {
    if |parts| == 1 {
      SplitWithoutSeparator(parts[0], sep);
    } else {
      SplitOfJoin(parts[1..], sep);
      SplitAtFirstSeparator(parts[0], Join(parts[1..], sep), sep);
    }
  }

  /** `authHeader?.split(" ")[1]`: the second space-separated piece; the first is not looked at. */
  function BearerToken(header: Option<string>): (token: Option<string>)
    ensures header.None? ==> token.None?
    ensures header.Some? ==> (token.Some? <==> ' ' in header.value)
    ensures token.Some? ==> ' ' !in token.value
  {
    match header
    case None => None
    case Some(h) =>
      var parts := Split(h, ' ');
      if |parts| >= 2 then Some(parts[1]) else None
  }

  /** Whatever the first word, a header `<word> <token>[ <more>]` yields exactly `<token>`. */
  lemma BearerTokenOfHeader(scheme: string, token: string, rest: string)
    requires ' ' !in scheme && ' ' !in token
    requires rest == "" || rest[0] == ' '
    ensures BearerToken(Some(scheme + " " + token + rest)) == Some(token)
  {
    assert scheme + " " + token + rest == scheme + [' '] + (token + rest);
    SplitAtFirstSeparator(scheme, token + rest, ' ');
    if rest == "" {
      assert token + rest == token;
      SplitWithoutSeparator(token, ' ');
    } else {
      assert token + rest == token + [' '] + rest[1..];
      SplitAtFirstSeparator(token, rest[1..], ' ');
    }
  }

  /** What the token library's verification reports. */
  datatype Verification = Verified(claims: Claims) | Expired | Malformed(reason: string)

  datatype GateOutcome =
    | Authenticated(identity: Claims) // req.user = decoded; next()
    | Rejected(error: Thrown)        // thrown, reaches the error handler

  const NoTokenMessage := "No Token Provided"
  const ExpiredMessage := "jwt expired"

  /** `!token`: no second piece, or an empty one. */
  predicate NoToken(header: Option<string>) {
    BearerToken(header).None? || BearerToken(header) == Some("")
  }

  /** The errors the token library throws, as the error handler sees them. */
  function VerificationError(v: Verification): Thrown {
    match v
    case Expired => ErrorValue(ErrorHandler.TokenExpiredErrorName, ExpiredMessage, None)
    case Malformed(reason) => ErrorValue(ErrorHandler.JsonWebTokenErrorName, reason, None)
    case Verified(_) => PrimitiveValue
  }

  /** The gate consults only the header, the secret and the verifier: no user lookup. */
  function AuthGate(header: Option<string>, secret: string, verify: (string, string) -> Verification): (r: GateOutcome)
    ensures NoToken(header) <==> r == Rejected(AppError(NoTokenMessage, 401))
    ensures !NoToken(header) ==>
              var v := verify(BearerToken(header).value, secret);
              && (r.Authenticated? <==> v.Verified?)
              && (v.Verified? ==> r.identity == v.claims)
              && (v.Expired? ==> r == Rejected(ErrorValue(ErrorHandler.TokenExpiredErrorName, ExpiredMessage, None)))
              && (v.Malformed? ==> r == Rejected(ErrorValue(ErrorHandler.JsonWebTokenErrorName, v.reason, None)))
  {
    if NoToken(header) then Rejected(AppError(NoTokenMessage, 401))
    else
      match verify(BearerToken(header).value, secret)
      case Verified(claims) => Authenticated(claims)
      case v => Rejected(VerificationError(v))
  }

  /**
   * Every rejection by the gate is answered 401, and an expired token is
   * told apart from a malformed one only by the message.
   */
  lemma GateRejectionsAreUnauthorized(header: Option<string>, secret: string,
                                      verify: (string, string) -> Verification, nodeEnv: Option<string>)
    requires AuthGate(header, secret, verify).Rejected?
    ensures var reply := ErrorHandler.Classify(AuthGate(header, secret, verify).error, nodeEnv);
            && reply.status == 401
            && (reply.body == StatusError(NoTokenMessage) <==> NoToken(header))
            && (reply.body == StatusMessage("Token expired") <==>
                  !NoToken(header) && verify(BearerToken(header).value, secret).Expired?)
            && (reply.body == StatusMessage("Invalid token") <==>
                  !NoToken(header) && verify(BearerToken(header).value, secret).Malformed?)
  {
  }

  /* ----- Signup ----- */

  const HashCost := 10
  const FailedToCreateUser := "Failed to create user"

  predicate EmailTaken(users: seq<User>, email: string) {
    exists i :: 0 <= i < |users| && users[i].email == email
  }

  predicate IdTaken(users: seq<User>, id: int) {
    exists i :: 0 <= i < |users| && users[i].id == id
  }

  /**
   * `INSERT INTO users (email, password_hash) ... RETURNING *`: the store
   * draws `newId` for the row and refuses a duplicate email or id.
   */
  function InsertUser(users: seq<User>, email: string, passwordHash: string, newId: int)
    : (r: (seq<User>, Result<seq<User>, Thrown>))
    ensures EmailTaken(users, email) || IdTaken(users, newId) ==>
              r == (users, Err(DatabaseError(UniqueViolation)))
    ensures !(EmailTaken(users, email) || IdTaken(users, newId)) ==>
              var row := User(newId, email, passwordHash);
              r == (users + [row], Ok([row]))
  {
    if EmailTaken(users, email) || IdTaken(users, newId) then (users, Err(DatabaseError(UniqueViolation)))
    else
      var row := User(newId, email, passwordHash);
      (users + [row], Ok([row]))
  }

  /** The handler's decision on the rows the insert returned. */
  function SignupReply(rows: seq<User>): (r: Result<Reply, Thrown>)
    ensures |rows| > 0 <==> r == Ok(Reply(201, MessageOnly(RegistrationMessage)))
    ensures |rows| == 0 <==> r == Err(AppError(FailedToCreateUser, 500))
  {
    if |rows| == 0 then Err(AppError(FailedToCreateUser, 500))
    else Ok(Reply(201, MessageOnly(RegistrationMessage)))
  }

  /** POST /auth/signup on a body the credential schema accepted. */
  function Signup(users: seq<User>, email: string, password: string, hash: (string, int) -> string, newId: int)
    : (r: (seq<User>, Result<Reply, Thrown>))
    ensures EmailTaken(users, email) || IdTaken(users, newId) ==>
              r == (users, Err(DatabaseError(UniqueViolation)))
    ensures !(EmailTaken(users, email) || IdTaken(users, newId)) ==>
              r == (users + [User(newId, email, hash(password, HashCost))],
                    Ok(Reply(201, MessageOnly(RegistrationMessage))))
    // the 500 branch cannot be reached through this store
    ensures r.1 != Err(AppError(FailedToCreateUser, 500))
  {
    var (users', inserted) := InsertUser(users, email, hash(password, HashCost), newId);
    match inserted
    case Err(e) => (users', Err(e))
    case Ok(rows) => (users', SignupReply(rows))
  }

  /**
   * The anti-enumeration policy, given the error handler of
   * middleware/errorHandler.ts: the client sees the same reply whether or
   * not the email was already registered, and a repeated registration
   * adds no second account.
   */
  lemma SignupDoesNotRevealExistingEmail(users: seq<User>, email: string, password: string,
                                         hash: (string, int) -> string, newId: int, nodeEnv: Option<string>)
    ensures var (users', result) := Signup(users, email, password, hash, newId);
            var reply := match result case Ok(rep) => rep case Err(e) => ErrorHandler.Classify(e, nodeEnv);
            && reply == Reply(201, MessageOnly(RegistrationMessage))
            && (EmailTaken(users, email) ==> users' == users)
  {
  }

  /* ----- Login ----- */

  const AuthErrorMessage := "Invalid Email or Password"
  const DummyHash := "$2b$10$verylongdummyhashplaceholderforsecurity"
  const TokenLifetime := "1h"
  const LoginMessage := "Login successful"

  /** `SELECT * FROM users WHERE email = $1`, first row. */
  function FindByEmail(users: seq<User>, email: string): (u: Option<User>)
    ensures u.Some? <==> EmailTaken(users, email)
    ensures u.Some? ==> u.value in users && u.value.email == email
  {
    if |users| == 0 then None
    else if users[0].email == email then Some(users[0])
    else
      var u := FindByEmail(users[1..], email);
      assert forall i :: 1 <= i < |users| ==> users[i] == users[1..][i - 1];
      u
  }

  datatype LoginSuccess = LoginSuccess(message: string, token: string)

  /** A login: the one hash `compare` was called with, and the outcome. */
  datatype LoginAttempt = LoginAttempt(comparedHash: string, outcome: Result<LoginSuccess, Thrown>)

  /** POST /auth/login on a body the credential schema accepted. */
  function Login(users: seq<User>, email: string, password: string, secret: string,
                 compare: (string, string) -> bool, sign: (Claims, string, string) -> string): (r: LoginAttempt)
    // compare runs once, on the stored hash or on the dummy one
    ensures EmailTaken(users, email) ==> r.comparedHash == FindByEmail(users, email).value.passwordHash
    ensures !EmailTaken(users, email) ==> r.comparedHash == DummyHash
    // one failure, one message, whatever went wrong
    ensures r.outcome.Err? <==> !EmailTaken(users, email) || !compare(password, r.comparedHash)
    ensures r.outcome.Err? ==> r.outcome.error == AppError(AuthErrorMessage, 401)
    ensures r.outcome.Ok? ==>
              exists u :: u in users && u.email == email && compare(password, u.passwordHash) &&
                r.outcome.value == LoginSuccess(LoginMessage, sign(Claims(u.id, u.email), secret, TokenLifetime))
  {
    var user := FindByEmail(users, email);
    var hashToCompare := if user.Some? then user.value.passwordHash else DummyHash;
    var valid := compare(password, hashToCompare);
    if user.None? || !valid then LoginAttempt(hashToCompare, Err(AppError(AuthErrorMessage, 401)))
    else LoginAttempt(hashToCompare, Ok(LoginSuccess(LoginMessage, sign(Claims(user.value.id, user.value.email), secret, TokenLifetime))))
  }

  /** "No such account" and "wrong password" are the same failure. */
  lemma LoginFailuresIndistinguishable(users: seq<User>, email: string, password: string, secret: string,
                                       compare: (string, string) -> bool, sign: (Claims, string, string) -> string,
                                       otherEmail: string, otherPassword: string)
    requires Login(users, email, password, secret, compare, sign).outcome.Err?
    requires Login(users, otherEmail, otherPassword, secret, compare, sign).outcome.Err?
    ensures Login(users, email, password, secret, compare, sign).outcome ==
            Login(users, otherEmail, otherPassword, secret, compare, sign).outcome
  {
  }

  /**
   * A fresh registration can log in: when `compare` accepts a password
   * against its own hash, signing up and then logging in with the same
   * credentials yields a token for the new account's id and email.
   */
  lemma SignupThenLogin(users: seq<User>, email: string, password: string, secret: string, newId: int,
                        hash: (string, int) -> string, compare: (string, string) -> bool,
                        sign: (Claims, string, string) -> string)
    requires !EmailTaken(users, email) && !IdTaken(users, newId)
    requires compare(password, hash(password, HashCost))
    ensures var (users', _) := Signup(users, email, password, hash, newId);
            Login(users', email, password, secret, compare, sign).outcome ==
              Ok(LoginSuccess(LoginMessage, sign(Claims(newId, email), secret, TokenLifetime)))
  {
    var (users', _) := Signup(users, email, password, hash, newId);
    assert users'[|users|] == User(newId, email, hash(password, HashCost));
    assert EmailTaken(users', email);
    var u := FindByEmail(users', email).value;
    assert u == User(newId, email, hash(password, HashCost)) by {
      assert u in users';
      assert u !in users;
    }
  }

  /**
   * The token a login issues opens the gate for that account: if the
   * library verifies what it signed and the token has no space in it, the
   * header `Bearer <token>` authenticates the caller as the account that
   * logged in, and no other.
   */
  lemma LoginThenGate(users: seq<User>, email: string, password: string, secret: string,
                      compare: (string, string) -> bool, sign: (Claims, string, string) -> string,
                      verify: (string, string) -> Verification)
    requires Login(users, email, password, secret, compare, sign).outcome.Ok?
    requires var u := FindByEmail(users, email).value;
             var token := sign(Claims(u.id, u.email), secret, TokenLifetime);
             ' ' !in token && token != "" && verify(token, secret) == Verified(Claims(u.id, u.email))
    ensures var token := Login(users, email, password, secret, compare, sign).outcome.value.token;
            AuthGate(Some("Bearer " + token), secret, verify) ==
              Authenticated(Claims(FindByEmail(users, email).value.id, email))
  {
    var u := FindByEmail(users, email).value;
    var token := sign(Claims(u.id, u.email), secret, TokenLifetime);
    assert Login(users, email, password, secret, compare, sign).outcome.value.token == token;
    BearerTokenOfHeader("Bearer", token, "");
    assert "Bearer " + token == "Bearer" + " " + token + "";
  }
}

=== FILE: auth_schema.dfy ===
/**
 * The credential schema (auth_schema.ts): an email the library accepts as
 * an email address and a password of 8..100 UTF-16 units, both required.
 * Login reuses the signup schema as it is.
 */
module AuthSchema {
  import opened Wrappers
  import opened Js
  import opened Zod

  const PasswordMin: nat := 8
  const PasswordMax: nat := 100

  const EmailMessage := "Please provide a valid email"
  // the schema's own spelling
  const PasswordShortMessage := "Pasword must be at least 8 characters long"
  const PasswordLongMessage := "Password is too long"

  /** `isEmail` is the library's email-format check, not modelled. */
  predicate SignUpValid(body: Body, isEmail: string -> bool) {
    && (match Lookup(body, "email") case Some(JStr(e)) => isEmail(e) case _ => false)
    && StringFieldOk(Lookup(body, "password"), true, PasswordMin, PasswordMax)
  }

  function EmailIssues(v: Prop, isEmail: string -> bool): seq<FieldIssue> {
    match v
    case Some(JStr(e)) => if isEmail(e) then [] else [FieldIssue("email", InvalidFormat, Some(EmailMessage))]
    case _ => [FieldIssue("email", InvalidType, None)]
  }

  /** The checks of `signUpSchema`, in declaration order. */
  function SignUpIssues(body: Body, isEmail: string -> bool): (issues: seq<FieldIssue>)
    ensures |issues| == 0 <==> SignUpValid(body, isEmail)
    ensures forall i :: 0 <= i < |issues| ==> issues[i].field in {"email", "password"}
    // both fields are required: a body missing either is rejected with an issue naming it
    ensures Lookup(body, "email").None? ==> exists i :: 0 <= i < |issues| && issues[i].field == "email"
    ensures Lookup(body, "password").None? ==> exists i :: 0 <= i < |issues| && issues[i].field == "password"
  {
    var e := EmailIssues(Lookup(body, "email"), isEmail);
    var p := StringIssues("password", Lookup(body, "password"), true, None,
                          PasswordMin, Some(PasswordShortMessage), PasswordMax, Some(PasswordLongMessage));
    StringIssuesEmptyIff("password", Lookup(body, "password"), true, None,
                         PasswordMin, Some(PasswordShortMessage), PasswordMax, Some(PasswordLongMessage));
    assert Lookup(body, "email").None? ==> (e + p)[0].field == "email";
    assert Lookup(body, "password").None? ==> (e + p)[|e|].field == "password";
    e + p
  }

  /** `loginSchema = signUpSchema`: the login checks are the signup checks. */
  function LoginIssues(body: Body, isEmail: string -> bool): (issues: seq<FieldIssue>)
    ensures issues == SignUpIssues(body, isEmail)
    ensures |issues| == 0 <==> SignUpValid(body, isEmail)
  {
    SignUpIssues(body, isEmail)
  }
}

=== FILE: error_handler.dfy ===
/**
 * The central error responder (middleware/errorHandler.ts): an ordered
 * classification of a thrown value into a status code and a JSON body.
 * AppError first, then the token library's errors, then the
 * unique-violation code, then a 500 fallback whose message is the error's
 * own only in development.
 */
module ErrorHandler {
  import opened Wrappers
  import opened Errors

  const JsonWebTokenErrorName := "JsonWebTokenError"
  const TokenExpiredErrorName := "TokenExpiredError"
  const DevelopmentMode := "development"
  const GenericMessage := "Internal Server Error"

  /** `err instanceof Error && (name is one of the token library's two error names)` */
  predicate IsTokenError(err: Thrown) {
    err.ErrorValue? && (err.name == JsonWebTokenErrorName || err.name == TokenExpiredErrorName)
  }

  /** `typeof err === 'object' && err !== null && 'code' in err && err.code === '23505'` */
  predicate IsUniqueViolation(err: Thrown) {
    match err
    case ErrorValue(_, _, code) => code == Some(UniqueViolation)
    case ObjectValue(code) => code == Some(UniqueViolation)
    case _ => false
  }

  /** Which branch of the handler answers, in the order the handler tries them. */
  datatype Branch = AppBranch | TokenBranch | DuplicateBranch | FallbackBranch

  function BranchOf(err: Thrown): Branch {
    if err.AppError? then AppBranch
    else if IsTokenError(err) then TokenBranch
    else if IsUniqueViolation(err) then DuplicateBranch
    else FallbackBranch
  }

  function Classify(err: Thrown, nodeEnv: Option<string>): (r: Reply)
    // an AppError answers with its own status and message
    ensures err.AppError? ==> r == Reply(err.statusCode, StatusError(err.message))
    // token errors are always 401; only the expiry is told apart from the rest
    ensures BranchOf(err) == TokenBranch ==>
              r.status == 401 &&
              (r.body == StatusMessage("Token expired") <==> err.name == TokenExpiredErrorName) &&
              (r.body == StatusMessage("Invalid token") <==> err.name != TokenExpiredErrorName)
    // a duplicate-key error looks exactly like a successful registration
    ensures BranchOf(err) == DuplicateBranch ==> r == Reply(201, MessageOnly(RegistrationMessage))
    // everything else is a 500 that hides the error's text outside development
    ensures BranchOf(err) == FallbackBranch ==> r.status == 500 && r.body.StatusMessage?
    ensures BranchOf(err) == FallbackBranch && r.body.message != GenericMessage ==>
              nodeEnv == Some(DevelopmentMode) && err.ErrorValue? && r.body.message == err.message
    // in development an `Error` shows its own message
    ensures BranchOf(err) == FallbackBranch && nodeEnv == Some(DevelopmentMode) && err.ErrorValue? ==>
              r.body.message == err.message
  {
    match BranchOf(err)
    case AppBranch => Reply(err.statusCode, StatusError(err.message))
    case TokenBranch =>
      Reply(401, StatusMessage(if err.name == TokenExpiredErrorName then "Token expired" else "Invalid token"))
    case DuplicateBranch => Reply(201, MessageOnly(RegistrationMessage))
    case FallbackBranch =>
      Reply(500, StatusMessage(if nodeEnv == Some(DevelopmentMode) && err.ErrorValue? then err.message else GenericMessage))
  }

  /** The status code alone: 401 exactly for AppErrors carrying 401 and for token errors. */
  lemma UnauthorizedExactly(err: Thrown, nodeEnv: Option<string>)
    ensures Classify(err, nodeEnv).status == 401 <==>
              (err.AppError? && err.statusCode == 401) || IsTokenError(err)
  {
  }

  /** Outside development no error other than an AppError reveals its own text. */
  lemma InternalsHiddenOutsideDevelopment(err: Thrown, nodeEnv: Option<string>)
    requires nodeEnv != Some(DevelopmentMode)
    requires !err.AppError?
    ensures Classify(err, nodeEnv).body.message in {"Token expired", "Invalid token", RegistrationMessage, GenericMessage}
  {
  }

  /** The order is fixed: an `Error` that both carries a token error's name and the
      duplicate-key code is answered as a token error, never as a registration. */
  lemma TokenCheckPrecedesDuplicateCheck(message: string, nodeEnv: Option<string>)
    ensures Classify(ErrorValue(JsonWebTokenErrorName, message, Some(UniqueViolation)), nodeEnv)
            == Reply(401, StatusMessage("Invalid token"))
  {
  }
}

=== FILE: errors.dfy ===
/**
 * What the handlers throw and what the service answers with.
 * `AppError` is the application's own error class (message and status code);
 * every other thrown value is described by the properties the error handler
 * inspects: whether it is an `Error`, its `name`, its `message`, and the
 * `code` property database errors carry.
 */
module Errors {
  import opened Wrappers

  datatype Thrown =
    | AppError(message: string, statusCode: int)
      /** Any other `Error` instance; `code` is its `code` property when it has one
          (a non-string code is represented by a string other than "23505"). */
    | ErrorValue(name: string, message: string, code: Option<string>)
      /** A thrown object that is not an `Error`. */
    | ObjectValue(code: Option<string>)
      /** A thrown primitive (string, number, `null`, `undefined`). */
    | PrimitiveValue

  /** PostgreSQL SQLSTATE codes the modelled statements can raise. */
  const UniqueViolation := "23505"
  const InvalidTextRepresentation := "22P02"
  const UndefinedColumn := "42703"
  const NegativeLimit := "2201W"
  const NegativeOffset := "2201X"
  const ProtocolViolation := "08P01"
  const NumericValueOutOfRange := "22003"
  const NotNullViolation := "23502"
  const CharacterNotInRepertoire := "22021"

  /** The fixed prefix of the server's message text for each code the model raises. */
  function ServerMessage(code: string): string {
    if code == UniqueViolation then "duplicate key value violates unique constraint"
    else if code == InvalidTextRepresentation then "invalid input syntax for type"
    else if code == UndefinedColumn then "column does not exist"
    else if code == NegativeLimit then "LIMIT must not be negative"
    else if code == NegativeOffset then "OFFSET must not be negative"
    else if code == ProtocolViolation then "bind message supplies the wrong number of parameters"
    else if code == NumericValueOutOfRange then "value out of range for type"
    else if code == NotNullViolation then "null value in column violates not-null constraint"
    else if code == CharacterNotInRepertoire then "invalid byte sequence for encoding"
    else "database error"
  }

  /** The driver's `DatabaseError`: an `Error` named "error" carrying the SQLSTATE as `code`. */
  function DatabaseError(code: string): Thrown {
    ErrorValue("error", ServerMessage(code), Some(code))
  }

  /** The JSON body of a response. */
  datatype ReplyBody =
    | StatusError(error: string)     // { status: 'error', error }
    | StatusMessage(message: string) // { status: 'error', message }
    | MessageOnly(message: string)   // { message }

  datatype Reply = Reply(status: int, body: ReplyBody)

  /** Signup's answer, shared on purpose by the duplicate-email path of the error handler. */
  const RegistrationMessage := "Registration successful. If this is a new email, you can now log in."
}

=== FILE: js.dfy ===
/**
 * The JavaScript values the request handlers see after JSON body parsing:
 * JSON values, truthiness, `||` and `??`, bodies as ordered key/value
 * fields, and string length as JavaScript measures it (UTF-16 code units).
 */
module Js {
  import opened Wrappers

  /**
   * A JSON value. Numbers are integers here; arrays and objects are one
   * case, carrying the text node-postgres would send for them.
   */
  datatype Json = JNull | JBool(b: bool) | JNum(n: int) | JStr(s: string) | JComposite(text: string)

  /** A property read `o.k` on a parsed body: `None` is `undefined`. */
  type Prop = Option<Json>

  /** JavaScript truthiness: `undefined`, `null`, `false`, `0` and `""` are falsy. */
  predicate Truthy(v: Prop) {
    match v
    case None => false
    case Some(JNull) => false
    case Some(JBool(b)) => b
    case Some(JNum(n)) => n != 0
    case Some(JStr(s)) => s != ""
    case Some(JComposite(_)) => true
  }

  /** `undefined` or `null`, the values `??` replaces. */
  predicate Nullish(v: Prop) {
    v == None || v == Some(JNull)
  }

  /** `a || b` */
  function Or(a: Prop, b: Prop): Prop {
    if Truthy(a) then a else b
  }

  /** `a ?? b` */
  function Coalesce(a: Prop, b: Prop): Prop {
    if Nullish(a) then b else a
  }

  /** One own property of a parsed JSON object. */
  datatype Field = Field(key: string, value: Json)

  /**
   * A parsed JSON object, its fields in the order `Object.keys` reports them.
   * JSON.parse keeps one field per key, so well-formed bodies have distinct keys.
   */
  type Body = seq<Field>

  predicate DistinctKeys(body: Body) {
    forall i, j :: 0 <= i < j < |body| ==> body[i].key != body[j].key
  }

  /** `Object.keys(body)` */
  function Keys(body: Body): seq<string> {
    seq(|body|, i requires 0 <= i < |body| => body[i].key)
  }

  /** `body[key]`: the value of the field named `key`, or `undefined`. */
  function Lookup(body: Body, key: string): (v: Prop)
    ensures v.Some? <==> exists i :: 0 <= i < |body| && body[i].key == key
    ensures v.Some? ==> Field(key, v.value) in body
    ensures forall i :: 0 <= i < |body| && body[i].key == key && (forall j :: 0 <= j < i ==> body[j].key != key)
                        ==> v == Some(body[i].value)
  {
    if |body| == 0 then None
    else if body[0].key == key then Some(body[0].value)
    else
      var v := Lookup(body[1..], key);
      assert forall i :: 1 <= i < |body| ==> body[i] == body[1..][i - 1];
      forall i | 0 <= i < |body| && body[i].key == key && (forall j :: 0 <= j < i ==> body[j].key != key)
        ensures v == Some(body[i].value)
      {
        assert forall j :: 0 <= j < i - 1 ==> body[1..][j] == body[j + 1];
      }
      v
  }

  /** The number of UTF-16 code units JavaScript's `length` counts for one character. */
  function Utf16Units(c: char): nat {
    if c as int > 0xFFFF then 2 else 1
  }

  /** `s.length` in JavaScript: characters outside the Basic Multilingual Plane count twice. */
  function Utf16Length(s: string): (n: nat)
    ensures |s| <= n <= 2 * |s|
    ensures (forall i :: 0 <= i < |s| ==> s[i] as int <= 0xFFFF) ==> n == |s|
  {
    if |s| == 0 then 0 else Utf16Units(s[0]) + Utf16Length(s[1..])
  }
}

=== FILE: local_tasks.dfy ===
/**
 * The in-memory task service (local_tasks.ts): an array of tasks with no
 * owners and no validation, and five routes over it. A route that writes
 * its 404 reply does not return, so the rest of the handler still runs:
 * a later write to the response fails (the first reply is the one sent),
 * but changes to the array before that failure stay.
 */
module LocalTasks {
  import opened Wrappers
  import opened Js

  /** A task as the array holds it; `title`, `description` and `completed` are whatever the body carried. */
  datatype LocalTask = LocalTask(id: int, title: Prop, description: Prop, completed: Prop)

  type Store = seq<LocalTask>

  /** What the client receives: the status and body of the first reply written. */
  datatype LocalBody =
    | AllTasks(tasks: Store)
    | Fetched(message: string, task: LocalTask)
    | Created(task: LocalTask)
    | Message(text: string)
    | ErrorObject(error: string)
    | ErrorText(text: string)

  datatype LocalReply = LocalReply(status: int, body: LocalBody)

  const FetchedMessage := "Task fetched successfully"
  const UpdatedMessage := "Task updated successfully"
  const DeletedMessage := "Task deleted successfully"
  const NotFoundMessage := "Task not found"
  /** GET /tasks/:id sends a JSON string, not an object, when the task is missing. */
  const NotFoundText := "{error: 'Task not found'}"

  /** The two tasks the array starts with. */
  const Initial: Store := [
    LocalTask(1, Some(JStr("Sample Task")), Some(JStr("This is a sample task")), Some(JBool(false))),
    LocalTask(2, Some(JStr("Another Task")), Some(JNull), Some(JBool(true)))
  ]

  predicate IdsUnique(s: Store) {
    forall a, b :: 0 <= a < b < |s| ==> s[a].id != s[b].id
  }

  predicate HasTask(s: Store, id: int) {
    exists x :: x in s && x.id == id
  }

  /**
   * `tasks.findIndex(task => task.id === id)`; `id` is `parseInt`'s result,
   * and NaN equals nothing.
   */
  function FindIndex(s: Store, id: Option<int>): (i: int)
    ensures -1 <= i < |s|
    ensures i >= 0 ==> id.Some? && s[i].id == id.value && forall k :: 0 <= k < i ==> s[k].id != id.value
    ensures i == -1 <==> id.None? || !HasTask(s, id.value)
  {
    match id
    case None => -1
    case Some(n) =>
      if |s| == 0 then -1
      else if s[0].id == n then 0
      else
        var i := FindIndex(s[1..], id);
        assert forall x :: x in s <==> x == s[0] || x in s[1..];
        if i == -1 then -1 else i + 1
  }

  /** `Math.max(...tasks.map(task => task.id))` */
  function MaxId(s: Store): (m: int)
    requires |s| > 0
    ensures forall x :: x in s ==> x.id <= m
    ensures exists x :: x in s && x.id == m
  {
    if |s| == 1 then s[0].id
    else
      var m := MaxId(s[1..]);
      assert forall x :: x in s <==> x == s[0] || x in s[1..];
      if s[0].id >= m then s[0].id else m
  }

  /** The id a new task gets: one more than the largest, or 1 for an empty array. */
  function NextId(s: Store): (n: int)
    ensures forall x :: x in s ==> x.id < n
    ensures |s| > 0 ==> HasTask(s, n - 1)
    ensures |s| == 0 ==> n == 1
  {
    if |s| > 0 then MaxId(s) + 1 else 1
  }

  /* ----- The routes ----- */

  /** GET /tasks: the whole array, in order. */
  function List(s: Store): (r: LocalReply)
    ensures r.status == 200 && r.body.AllTasks?
    ensures |r.body.tasks| == |s| && forall k :: 0 <= k < |s| ==> r.body.tasks[k] == s[k]
  {
    LocalReply(200, AllTasks(s))
  }

  /** GET /tasks/:id: the first task with that id, or the 404 text. */
  function Get(s: Store, id: Option<int>): (r: LocalReply)
    ensures r.status == 404 <==> id.None? || !HasTask(s, id.value)
    ensures r.status == 404 ==> r.body == ErrorText(NotFoundText)
    ensures r.status != 404 ==>
              && r.status == 200 && r.body.Fetched? && r.body.message == FetchedMessage
              && r.body.task in s && r.body.task.id == id.value
    ensures IdsUnique(s) && r.status == 200 ==> forall x :: x in s && x.id == id.value ==> x == r.body.task
  {
    var i := FindIndex(s, id);
    if i == -1 then LocalReply(404, ErrorText(NotFoundText))
    else LocalReply(200, Fetched(FetchedMessage, s[i]))
  }

  /**
   * POST /tasks: the new task takes the next id, the body's title as it is,
   * the body's description when truthy and `null` otherwise, and starts
   * not completed.
   */
  function Create(s: Store, body: Body): (r: (Store, LocalReply))
    ensures r.1.status == 201 && r.1.body.Created?
    ensures r.0 == s + [r.1.body.task]
    ensures !HasTask(s, r.1.body.task.id)
    // the new id is the largest one plus one, or 1 in an empty array
    ensures r.1.body.task.id == NextId(s)
    ensures r.1.body.task.title == Lookup(body, "title")
    ensures r.1.body.task.description == (if Truthy(Lookup(body, "description")) then Lookup(body, "description")
                                          else Some(JNull))
    ensures r.1.body.task.completed == Some(JBool(false))
    ensures IdsUnique(s) ==> IdsUnique(r.0)
  {
    var task := LocalTask(NextId(s), Lookup(body, "title"), Or(Lookup(body, "description"), Some(JNull)),
                          Some(JBool(false)));
    var s' := s + [task];
    assert forall k :: 0 <= k < |s| ==> s'[k] in s;
    (s', LocalReply(201, Created(task)))
  }

  /** With distinct ids, the list shows a task with an id exactly when a fetch of that id answers 200 with it. */
  lemma ListAgreesWithGet(s: Store, id: int)
    requires IdsUnique(s)
    ensures (exists x :: x in List(s).body.tasks && x.id == id) <==> Get(s, Some(id)).status == 200
    ensures forall x :: x in List(s).body.tasks && x.id == id ==> Get(s, Some(id)).body == Fetched(FetchedMessage, x)
  {
    assert List(s).body.tasks == s;
  }

  /** After a create, the list is the old list with the created task at the end. */
  lemma CreateThenList(s: Store, body: Body)
    ensures List(Create(s, body).0).body.tasks == List(s).body.tasks + [Create(s, body).1.body.task]
  {
    assert List(s).body.tasks == s;
  }

  /** The task an update writes: the body's non-nullish values over the old ones, the id kept. */
  function Merged(task: LocalTask, body: Body): LocalTask {
    LocalTask(task.id,
              Coalesce(Lookup(body, "title"), task.title),
              Coalesce(Lookup(body, "description"), task.description),
              Coalesce(Lookup(body, "completed"), task.completed))
  }

  /**
   * PUT /tasks/:id. A missing task gets the 404, after which reading the
   * missing task's id throws before anything is written.
   */
  function Update(s: Store, id: Option<int>, body: Body): (r: (Store, LocalReply))
    ensures FindIndex(s, id) == -1 ==> r == (s, LocalReply(404, ErrorObject(NotFoundMessage)))
    ensures FindIndex(s, id) >= 0 ==>
              && var i := FindIndex(s, id);
              && r.1 == LocalReply(200, Message(UpdatedMessage))
              && |r.0| == |s|
              && (forall k :: 0 <= k < |s| && k != i ==> r.0[k] == s[k])
              && r.0[i].id == s[i].id
              // a field the body carries as `null` or leaves out keeps its old value
              && (Nullish(Lookup(body, "title")) ==> r.0[i].title == s[i].title)
              && (!Nullish(Lookup(body, "title")) ==> r.0[i].title == Lookup(body, "title"))
              && (Nullish(Lookup(body, "description")) ==> r.0[i].description == s[i].description)
              && (!Nullish(Lookup(body, "description")) ==> r.0[i].description == Lookup(body, "description"))
              && (Nullish(Lookup(body, "completed")) ==> r.0[i].completed == s[i].completed)
              && (!Nullish(Lookup(body, "completed")) ==> r.0[i].completed == Lookup(body, "completed"))
    ensures IdsUnique(s) ==> IdsUnique(r.0)
  {
    var i := FindIndex(s, id);
    if i == -1 then (s, LocalReply(404, ErrorObject(NotFoundMessage)))
    else
      var s' := s[i := Merged(s[i], body)];
      assert forall k :: 0 <= k < |s'| ==> s'[k].id == s[k].id;
      (s', LocalReply(200, Message(UpdatedMessage)))
  }

  /** Sending the same update twice is sending it once. */
  lemma UpdateIdempotent(s: Store, id: Option<int>, body: Body)
    requires IdsUnique(s)
    ensures Update(Update(s, id, body).0, id, body) == Update(s, id, body)
  {
    var s1 := Update(s, id, body).0;
    var i := FindIndex(s, id);
    if i >= 0 {
      assert forall k :: 0 <= k < |s| ==> s1[k].id == s[k].id;
      assert FindIndex(s1, id) == i;
      assert Merged(s1[i], body) == s1[i];
      assert s1[i := Merged(s1[i], body)] == s1;
    }
  }

  /* ----- Delete ----- */

  /** Where `Array.prototype.splice` starts: a negative start counts from the end. */
  function SpliceStart(len: nat, start: int): (a: nat)
    ensures a <= len
    ensures 0 <= start <= len ==> a == start
    ensures -(len as int) <= start < 0 ==> a == len + start
  {
    if start < 0 then (if len + start < 0 then 0 else len + start)
    else if start > len then len
    else start
  }

  /** `s.splice(start, count)`: the array after removing up to `count` elements from the start position. */
  function Splice(s: Store, start: int, count: nat): (r: Store)
    ensures var a := SpliceStart(|s|, start);
            var k := if count < |s| - a then count else |s| - a;
            && |r| == |s| - k
            && (forall i :: 0 <= i < a ==> r[i] == s[i])
            && (forall i :: a <= i < |r| ==> r[i] == s[i + k])
  {
    var a := SpliceStart(|s|, start);
    var k := if count < |s| - a then count else |s| - a;
    s[..a] + s[a + k..]
  }

  /** `tasks.splice(i, 1)`: one element removed at a valid index, or with start -1 the last one. */
  function SpliceOne(s: Store, i: int): (r: Store)
    requires -1 <= i < |s| && |s| > 0
    ensures i >= 0 ==> r == s[..i] + s[i + 1..]
    ensures i == -1 ==> r == s[..|s| - 1]
  {
    if i == -1 then
      assert s[|s| - 1 + 1..] == [];
      Splice(s, i, 1)
    else Splice(s, i, 1)
  }

  /**
   * DELETE /tasks/:id as written: the 404 is sent but the handler goes on
   * to `tasks.splice(-1, 1)`, which removes the last task.
   */
  function Delete(s: Store, id: Option<int>): (r: (Store, LocalReply))
    ensures FindIndex(s, id) == -1 ==>
              r == ((if |s| > 0 then s[..|s| - 1] else s), LocalReply(404, ErrorObject(NotFoundMessage)))
    ensures FindIndex(s, id) >= 0 ==>
              var i := FindIndex(s, id);
              r == (s[..i] + s[i + 1..], LocalReply(200, Message(DeletedMessage)))
  {
    var i := FindIndex(s, id);
    if i == -1 then
      var reply := LocalReply(404, ErrorObject(NotFoundMessage));
      if |s| == 0 then (s, reply) else (SpliceOne(s, i), reply)
    else (SpliceOne(s, i), LocalReply(200, Message(DeletedMessage)))
  }

  /** A delete of an id nobody holds answers 404 and still drops the last task. */
  lemma DeleteMissingDropsLast(s: Store, id: int)
    requires IdsUnique(s) && |s| > 0 && !HasTask(s, id)
    ensures Delete(s, Some(id)).1.status == 404
    ensures s[|s| - 1] !in Delete(s, Some(id)).0
  {
    var t := s[..|s| - 1];
    forall k | 0 <= k < |t| ensures t[k] != s[|s| - 1] {
      assert t[k] == s[k];
    }
  }

  /** From the starting array: deleting task 3 answers 404 and loses "Another Task". */
  lemma DeleteMissingFromInitial()
    ensures Delete(Initial, Some(3)) == ([Initial[0]], LocalReply(404, ErrorObject(NotFoundMessage)))
  {
    assert !HasTask(Initial, 3);
    assert Initial[..1] == [Initial[0]];
  }

  /**
   * DELETE /tasks/:id with a `return` after the 404: a missing id leaves
   * the array alone, a present one removes exactly that task and keeps
   * the others in order.
   */
  function DeleteReturning(s: Store, id: Option<int>): (r: (Store, LocalReply))
    ensures FindIndex(s, id) == -1 ==> r == (s, LocalReply(404, ErrorObject(NotFoundMessage)))
    ensures FindIndex(s, id) >= 0 ==>
              var i := FindIndex(s, id);
              r == (s[..i] + s[i + 1..], LocalReply(200, Message(DeletedMessage)))
    ensures IdsUnique(s) && id.Some? ==> forall x :: x in r.0 <==> x in s && x.id != id.value
    ensures IdsUnique(s) ==> IdsUnique(r.0)
  {
    var i := FindIndex(s, id);
    if i == -1 then (s, LocalReply(404, ErrorObject(NotFoundMessage)))
    else
      RemoveIndex(s, i);
      (s[..i] + s[i + 1..], LocalReply(200, Message(DeletedMessage)))
  }

  /** Removing the element at `i` keeps every element with another id, and the ids distinct. */
  lemma RemoveIndex(s: Store, i: int)
    requires 0 <= i < |s|
    ensures IdsUnique(s) ==> forall x :: x in s[..i] + s[i + 1..] <==> x in s && x.id != s[i].id
    ensures IdsUnique(s) ==> IdsUnique(s[..i] + s[i + 1..])
  {
    var t := s[..i] + s[i + 1..];
    if !IdsUnique(s) {
      return;
    }
    forall x ensures x in t <==> x in s && x.id != s[i].id {
      if x in t {
        var k :| 0 <= k < |t| && t[k] == x;
        if k < i { assert s[k] == x; } else { assert s[k + 1] == x; }
      }
      if x in s && x.id != s[i].id {
        var k :| 0 <= k < |s| && s[k] == x;
        if k < i { assert t[k] == x; } else { assert k != i; assert t[k - 1] == x; }
      }
    }
    forall a, b | 0 <= a < b < |t| ensures t[a].id != t[b].id {
      var a' := if a < i then a else a + 1;
      var b' := if b < i then b else b + 1;
      assert t[a] == s[a'] && t[b] == s[b'];
    }
  }

  /** The starting array has distinct ids, so every route above keeps them distinct. */
  lemma InitialIdsUnique()
    ensures IdsUnique(Initial)
    ensures NextId(Initial) == 3
  {
    assert Initial[0].id == 1 && Initial[1].id == 2;
  }
}

=== FILE: postgres.dfy ===
/**
 * How a statement parameter reaches PostgreSQL. node-postgres sends
 * `null` and `undefined` as NULL and every other value as text: a number
 * or boolean through `toString()`, an array or object as its own text.
 * The server converts each text with the input function of the type the
 * parameter has in the statement, parameter by parameter in placeholder
 * order, and the first one it refuses fails the statement.
 */
module Postgres {
  import opened Wrappers
  import opened Js
  import opened Errors

  /** A parameter as the driver sends it. */
  datatype Param = Text(s: string) | Null

  /** The types the modelled statements give their parameters. */
  datatype SqlType = Integer | BigInt | TextType | Boolean

  /** A converted parameter value. */
  datatype Datum = DInt(n: int) | DText(s: string) | DBool(b: bool) | DNull

  /** A datum of the given type, or NULL. */
  predicate Typed(ty: SqlType, d: Datum) {
    || d.DNull?
    || match ty
       case Integer => d.DInt?
       case BigInt => d.DInt?
       case TextType => d.DText?
       case Boolean => d.DBool?
  }

  /* ----- Decimal text ----- */

  function DigitChar(d: nat): char
    requires d < 10
  {
    "0123456789"[d]
  }

  function DigitValue(c: char): Option<nat> {
    if '0' <= c <= '9' then Some(c as int - '0' as int) else None
  }

  /** The decimal digits of a natural number, without leading zeros. */
  function Decimal(n: nat): (s: string)
    ensures |s| > 0
    ensures forall i :: 0 <= i < |s| ==> DigitValue(s[i]).Some?
    decreases n
  {
    if n < 10 then [DigitChar(n)]
    else
      var s := Decimal(n / 10) + [DigitChar(n % 10)];
      assert forall i :: 0 <= i < |s| - 1 ==> s[i] == Decimal(n / 10)[i];
      s
  }

  /** A run of decimal digits, read as a natural number. */
  function ParseDecimal(s: string): Option<nat>
    decreases |s|
  {
    if |s| == 0 then None
    else
      match DigitValue(s[|s| - 1])
      case None => None
      case Some(d) =>
        if |s| == 1 then Some(d)
        else
          match ParseDecimal(s[..|s| - 1])
          case None => None
          case Some(v) => Some(v * 10 + d)
  }

  /** The digits of a number read back as that number. */
  lemma {:induction false} DecimalRoundTrip(n: nat)
    ensures ParseDecimal(Decimal(n)) == Some(n)
    decreases n
  {
    if n >= 10 {
      DecimalRoundTrip(n / 10);
      var s := Decimal(n);
      assert s[..|s| - 1] == Decimal(n / 10);
      assert DigitValue(s[|s| - 1]) == Some(n % 10);
    }
  }

  /** A text with a character that is not a digit is no run of digits. */
  lemma {:induction false} ParseDecimalRefuses(s: string, k: int)
    requires 0 <= k < |s| && DigitValue(s[k]).None?
    ensures ParseDecimal(s) == None
    decreases |s|
  {
    if k < |s| - 1 {
      ParseDecimalRefuses(s[..|s| - 1], k);
    }
  }

  /* ----- The driver's text for a JavaScript number ----- */

  /** From 10^21 on, JavaScript writes a number in exponent form. */
  const ExponentFrom: nat := 1_000_000_000_000_000_000_000

  function Abs(n: int): nat {
    if n < 0 then -n else n
  }

  function SignText(n: int): string {
    if n < 0 then "-" else ""
  }

  /** An integer in plain decimal, with a minus sign when negative. */
  function SignedDecimal(n: int): string {
    SignText(n) + Decimal(Abs(n))
  }

  function StripTrailingZeros(s: string): (r: string)
    ensures |r| <= |s| && r == s[..|r|]
    decreases |s|
  {
    if |s| > 0 && s[|s| - 1] == '0' then StripTrailingZeros(s[..|s| - 1]) else s
  }

  /** `d.ddd` of the exponent form: the first digit, then the others without trailing zeros. */
  function Mantissa(digits: string): (m: string)
    requires |digits| > 0
    ensures |m| > 0 && m[0] == digits[0]
  {
    var rest := StripTrailingZeros(digits[1..]);
    if |rest| == 0 then [digits[0]] else [digits[0]] + "." + rest
  }

  /** `1.5e+21`: the exponent form, digits taken exactly. */
  function ExponentText(n: int): string {
    var digits := Decimal(Abs(n));
    SignText(n) + Mantissa(digits) + "e+" + Decimal(|digits| - 1)
  }

  /** `String(n)` for an integer-valued JavaScript number. */
  function NumberText(n: int): string {
    if Abs(n) < ExponentFrom then SignedDecimal(n) else ExponentText(n)
  }

  /** What node-postgres sends for a JSON value. */
  function DriverParam(j: Json): Param {
    match j
    case JNull => Null
    case JBool(b) => Text(if b then "true" else "false")
    case JNum(n) => Text(NumberText(n))
    case JStr(s) => Text(s)
    case JComposite(text) => Text(text)
  }

  /** What node-postgres sends for a property read: `undefined`, like `null`, goes as NULL. */
  function PropParam(v: Prop): Param {
    match v
    case None => Null
    case Some(j) => DriverParam(j)
  }

  /** What node-postgres sends for a JavaScript number held by the handler. */
  function NumberParam(n: int): Param {
    Text(NumberText(n))
  }

  /** What node-postgres sends for the NaN that `parseInt` gives for a non-number. */
  const NaNParam := Text("NaN")

  /* ----- The server's input functions ----- */

  /** Integer input: an optional sign and at least one decimal digit. */
  function ParseInteger(s: string): Option<int> {
    var negative := |s| > 0 && s[0] == '-';
    var digits := if |s| > 0 && (s[0] == '-' || s[0] == '+') then s[1..] else s;
    match ParseDecimal(digits)
    case None => None
    case Some(v) =>
      var n: int := if negative then 0 - v as int else v;
      Some(n)
  }

  function Lower(c: char): char {
    if 'A' <= c <= 'Z' then (c as int + 32) as char else c
  }

  /** `s` is a non-empty prefix of `word`, ignoring ASCII case. */
  predicate PrefixOf(s: string, word: string) {
    && 0 < |s| <= |word|
    && forall i :: 0 <= i < |s| ==> Lower(s[i]) == word[i]
  }

  /**
   * Boolean input: a prefix of `true`, `false`, `yes` or `no`, `on`, a
   * prefix of `off` of two letters or more, `1` or `0`, in either case.
   */
  function ParseBool(s: string): Option<bool> {
    if PrefixOf(s, "true") then Some(true)
    else if PrefixOf(s, "false") then Some(false)
    else if PrefixOf(s, "yes") then Some(true)
    else if PrefixOf(s, "no") then Some(false)
    else if |s| >= 2 && PrefixOf(s, "on") then Some(true)
    else if |s| >= 2 && PrefixOf(s, "off") then Some(false)
    else if s == "1" then Some(true)
    else if s == "0" then Some(false)
    else None
  }

  /** The range of the `integer` and `bigint` types; the other types have none. */
  predicate InRange(ty: SqlType, n: int) {
    match ty
    case Integer => -0x8000_0000 <= n < 0x8000_0000
    case BigInt => -0x8000_0000_0000_0000 <= n < 0x8000_0000_0000_0000
    case _ => true
  }

  /**
   * The server checks every text parameter against the client encoding
   * before any type sees it, and UTF-8 there admits no U+0000.
   */
  predicate Encodes(p: Param) {
    p.Text? ==> '\0' !in p.s
  }

  /**
   * The conversion of one parameter to its type: NULL binds to every type;
   * a text holding U+0000 is 22021 whatever the type; a text an integer
   * type cannot read is 22P02, a number beyond its range 22003; a text
   * column takes every other text as it is.
   */
  function Input(ty: SqlType, p: Param): (r: Result<Datum, string>)
    ensures r.Ok? ==> Typed(ty, r.value)
    ensures r.Ok? && r.value.DNull? <==> p.Null?
    ensures r == Err(CharacterNotInRepertoire) <==> !Encodes(p)
    ensures r.Err? ==> r.error == CharacterNotInRepertoire || r.error == InvalidTextRepresentation || r.error == NumericValueOutOfRange
    ensures ty == TextType ==> (r.Ok? <==> Encodes(p))
    ensures ty == TextType && p.Text? && r.Ok? ==> r.value == DText(p.s)
  {
    match p
    case Null => Ok(DNull)
    case Text(s) =>
      if '\0' in s then Err(CharacterNotInRepertoire)
      else
        match ty
        case TextType => Ok(DText(s))
        case Boolean =>
          (match ParseBool(s) case Some(b) => Ok(DBool(b)) case None => Err(InvalidTextRepresentation))
        case _ =>
          match ParseInteger(s)
          case None => Err(InvalidTextRepresentation)
          case Some(n) => if InRange(ty, n) then Ok(DInt(n)) else Err(NumericValueOutOfRange)
  }

  /**
   * The outcome of binding a JavaScript number to an integer type, stated
   * without text: the number itself within range; beyond it 22003 while
   * JavaScript still writes the number in digits, 22P02 once it switches
   * to exponent form.
   */
  function NumberArgument(ty: SqlType, n: int): Result<int, string> {
    if InRange(ty, n) then Ok(n)
    else if Abs(n) < ExponentFrom then Err(NumericValueOutOfRange)
    else Err(InvalidTextRepresentation)
  }

  /** The driver's text for a number, read by the server, is what the number argument says. */
  lemma NumberInput(ty: SqlType, n: int)
    requires ty == Integer || ty == BigInt
    ensures NumberArgument(ty, n).Ok? ==> Input(ty, NumberParam(n)) == Ok(DInt(n))
    ensures NumberArgument(ty, n).Err? ==> Input(ty, NumberParam(n)) == Err(NumberArgument(ty, n).error)
  {
    NumberTextEncodes(n);
    if Abs(n) < ExponentFrom {
      SignedDecimalRoundTrip(n);
    } else {
      ExponentTextIsNoInteger(n);
    }
  }

  /** Digits, a sign, a point and an exponent mark: a number's text holds no U+0000. */
  lemma NumberTextEncodes(n: int)
    ensures Encodes(NumberParam(n))
  {
    var digits := Decimal(Abs(n));
    DigitsEncode(digits);
    if Abs(n) >= ExponentFrom {
      var rest := StripTrailingZeros(digits[1..]);
      DigitsEncode(rest);
      DigitsEncode(Decimal(|digits| - 1));
    }
  }

  lemma DigitsEncode(s: string)
    requires forall i :: 0 <= i < |s| ==> DigitValue(s[i]).Some?
    ensures '\0' !in s
  {
  }

  /** Plain decimal text reads back as its number. */
  lemma SignedDecimalRoundTrip(n: int)
    ensures ParseInteger(SignedDecimal(n)) == Some(n)
  {
    var digits := Decimal(Abs(n));
    DecimalRoundTrip(Abs(n));
    assert DigitValue(digits[0]).Some?;
    if n < 0 {
      assert SignedDecimal(n)[1..] == digits;
    } else {
      assert SignedDecimal(n) == digits;
    }
  }

  /** The exponent form is no integer text. */
  lemma ExponentTextIsNoInteger(n: int)
    ensures ParseInteger(ExponentText(n)) == None
  {
    var digits := Decimal(Abs(n));
    var m := Mantissa(digits);
    var body := m + "e+" + Decimal(|digits| - 1);
    assert ExponentText(n) == SignText(n) + body;
    assert body[|m|] == 'e';
    ParseDecimalRefuses(body, |m|);
    assert DigitValue(body[0]).Some?;
    if n < 0 {
      assert ExponentText(n)[1..] == body;
    } else {
      assert ExponentText(n) == body;
    }
  }

  /** `NaN` is no integer text. */
  lemma NaNIsRefused(ty: SqlType)
    requires ty == Integer || ty == BigInt
    ensures Input(ty, NaNParam) == Err(InvalidTextRepresentation)
  {
    ParseDecimalRefuses("NaN", 2);
  }

  /** The booleans the driver sends read back as themselves. */
  lemma BoolInput(b: bool)
    ensures Input(Boolean, DriverParam(JBool(b))) == Ok(DBool(b))
  {
  }

  /* ----- Binding a parameter list ----- */

  /** Parameter k is the first one its type refuses. */
  predicate FirstRefused(types: seq<SqlType>, params: seq<Param>, k: int)
    requires |types| == |params|
  {
    && 0 <= k < |params|
    && Input(types[k], params[k]).Err?
    && forall j :: 0 <= j < k ==> Input(types[j], params[j]).Ok?
  }

  lemma FirstRefusedUnique(types: seq<SqlType>, params: seq<Param>, k: int, k': int)
    requires |types| == |params|
    requires FirstRefused(types, params, k) && FirstRefused(types, params, k')
    ensures k == k'
  {
  }

  /**
   * The Bind step: every parameter converted in placeholder order, or the
   * error of the first one refused.
   */
  function BindAll(types: seq<SqlType>, params: seq<Param>): (r: Result<seq<Datum>, string>)
    requires |types| == |params|
    ensures r.Ok? ==> |r.value| == |params|
    decreases |params|
  {
    if |params| == 0 then Ok([])
    else
      match Input(types[0], params[0])
      case Err(c) => Err(c)
      case Ok(v) =>
        match BindAll(types[1..], params[1..])
        case Err(c) => Err(c)
        case Ok(vs) => Ok([v] + vs)
  }

  /**
   * Binding succeeds exactly when every parameter converts, yielding the
   * converted values in order; otherwise it fails with the error of the
   * first parameter refused.
   */
  lemma {:induction false} BindAllMeaning(types: seq<SqlType>, params: seq<Param>)
    requires |types| == |params|
    ensures BindAll(types, params).Ok? <==> forall k :: 0 <= k < |params| ==> Input(types[k], params[k]).Ok?
    ensures BindAll(types, params).Ok? ==>
              forall k :: 0 <= k < |params| ==> Input(types[k], params[k]) == Ok(BindAll(types, params).value[k])
    ensures BindAll(types, params).Err? ==>
              exists k :: FirstRefused(types, params, k) && Input(types[k], params[k]) == Err(BindAll(types, params).error)
    decreases |params|
  {
    if |params| > 0 {
      BindAllMeaning(types[1..], params[1..]);
      assert forall k :: 1 <= k < |params| ==> types[k] == types[1..][k - 1] && params[k] == params[1..][k - 1];
      var r := BindAll(types, params);
      if Input(types[0], params[0]).Err? {
        assert FirstRefused(types, params, 0);
      } else if BindAll(types[1..], params[1..]).Err? {
        var c := BindAll(types[1..], params[1..]).error;
        var k :| FirstRefused(types[1..], params[1..], k) && Input(types[1..][k], params[1..][k]) == Err(c);
        assert FirstRefused(types, params, k + 1);
      } else {
        var vs := BindAll(types[1..], params[1..]).value;
        assert forall k :: 1 <= k < |params| ==> r.value[k] == vs[k - 1];
      }
    }
  }

  /** Binding two lists one after the other: the first list's error, else the second's, else both results. */
  lemma {:induction false} BindAllConcat(t1: seq<SqlType>, p1: seq<Param>, t2: seq<SqlType>, p2: seq<Param>)
    requires |t1| == |p1| && |t2| == |p2|
    ensures BindAll(t1, p1).Err? ==> BindAll(t1 + t2, p1 + p2) == Err(BindAll(t1, p1).error)
    ensures BindAll(t1, p1).Ok? && BindAll(t2, p2).Err? ==> BindAll(t1 + t2, p1 + p2) == Err(BindAll(t2, p2).error)
    ensures BindAll(t1, p1).Ok? && BindAll(t2, p2).Ok? ==>
              BindAll(t1 + t2, p1 + p2) == Ok(BindAll(t1, p1).value + BindAll(t2, p2).value)
    decreases |p1|
  {
    if |p1| == 0 {
      assert t1 + t2 == t2 && p1 + p2 == p2;
      assert BindAll(t1, p1) == Ok([]);
      if BindAll(t2, p2).Ok? {
        assert [] + BindAll(t2, p2).value == BindAll(t2, p2).value;
      }
    } else {
      var t, p := t1 + t2, p1 + p2;
      assert t[0] == t1[0] && p[0] == p1[0];
      assert t[1..] == t1[1..] + t2 && p[1..] == p1[1..] + p2;
      BindAllConcat(t1[1..], p1[1..], t2, p2);
      BindAllStep(t, p);
      BindAllStep(t1, p1);
      var head := Input(t1[0], p1[0]);
      if head.Ok? && BindAll(t1[1..], p1[1..]).Ok? && BindAll(t2, p2).Ok? {
        var v1 := BindAll(t1[1..], p1[1..]).value;
        var v2 := BindAll(t2, p2).value;
        assert [head.value] + (v1 + v2) == ([head.value] + v1) + v2;
      }
    }
  }

  /** One step of the Bind loop. */
  lemma BindAllStep(types: seq<SqlType>, params: seq<Param>)
    requires |types| == |params| > 0
    ensures Input(types[0], params[0]).Err? ==> BindAll(types, params) == Err(Input(types[0], params[0]).error)
    ensures Input(types[0], params[0]).Ok? && BindAll(types[1..], params[1..]).Err? ==>
              BindAll(types, params) == Err(BindAll(types[1..], params[1..]).error)
    ensures Input(types[0], params[0]).Ok? && BindAll(types[1..], params[1..]).Ok? ==>
              BindAll(types, params) == Ok([Input(types[0], params[0]).value] + BindAll(types[1..], params[1..]).value)
  {
  }

  /* ----- Binding the numbers a handler computes ----- */

  /** A number the handler computed, or `None` for the NaN of a failed `parseInt`. */
  function ArgParam(a: Option<int>): Param {
    match a
    case Some(n) => NumberParam(n)
    case None => NaNParam
  }

  function ArgParams(args: seq<Option<int>>): (ps: seq<Param>)
    ensures |ps| == |args| && forall k :: 0 <= k < |args| ==> ps[k] == ArgParam(args[k])
  {
    seq(|args|, k requires 0 <= k < |args| => ArgParam(args[k]))
  }

  /** The outcome of binding one such argument, stated without text. */
  function Argument(ty: SqlType, a: Option<int>): Result<int, string> {
    match a
    case Some(n) => NumberArgument(ty, n)
    case None => Err(InvalidTextRepresentation)
  }

  /** The error of the first argument its type refuses, if any. */
  function FirstError(types: seq<SqlType>, args: seq<Option<int>>): (e: Option<string>)
    requires |types| == |args|
    ensures e.None? <==> forall k :: 0 <= k < |args| ==> Argument(types[k], args[k]).Ok?
    ensures e.Some? ==> e.value == InvalidTextRepresentation || e.value == NumericValueOutOfRange
    decreases |args|
  {
    if |args| == 0 then None
    else
      assert forall k :: 1 <= k < |args| ==> types[k] == types[1..][k - 1] && args[k] == args[1..][k - 1];
      match Argument(types[0], args[0])
      case Err(c) => Some(c)
      case Ok(_) => FirstError(types[1..], args[1..])
  }

  predicate IntegerTypes(types: seq<SqlType>) {
    forall k :: 0 <= k < |types| ==> types[k].Integer? || types[k].BigInt?
  }

  /**
   * Binding the driver's text for numbers (and NaN) to integer parameters
   * fails exactly with the first argument's error, and otherwise yields
   * the numbers themselves.
   */
  lemma {:induction false} ArgumentsBind(types: seq<SqlType>, args: seq<Option<int>>)
    requires |types| == |args| && IntegerTypes(types)
    ensures FirstError(types, args).Some? ==> BindAll(types, ArgParams(args)) == Err(FirstError(types, args).value)
    ensures FirstError(types, args).None? ==>
              && BindAll(types, ArgParams(args)).Ok?
              && forall k :: 0 <= k < |args| ==>
                   args[k].Some? && BindAll(types, ArgParams(args)).value[k] == DInt(args[k].value)
    decreases |args|
  {
    if |args| > 0 {
      var ps := ArgParams(args);
      assert ps[1..] == ArgParams(args[1..]);
      assert IntegerTypes(types[1..]) by {
        assert forall k :: 1 <= k < |types| ==> types[k] == types[1..][k - 1];
      }
      ArgumentsBind(types[1..], args[1..]);
      match args[0]
      case None => NaNIsRefused(types[0]);
      case Some(n) => NumberInput(types[0], n);
    }
  }
}

=== FILE: task_rows.dfy ===
/**
 * The tasks table: rows, the owner filter every statement applies
 * (`WHERE user_id = ...`), and `ORDER BY id`. The table is a sequence of
 * rows in no particular order; the primary key keeps ids distinct.
 */
module TaskRows {
  import opened Wrappers

  datatype Row = Row(id: int, title: string, description: Option<string>, completed: bool, userId: int)

  type Table = seq<Row>

  /** The primary-key constraint on `id`. */
  predicate UniqueIds(t: Table) {
    forall i, j :: 0 <= i < j < |t| ==> t[i].id != t[j].id
  }

  predicate HasId(t: Table, id: int) {
    exists i :: 0 <= i < |t| && t[i].id == id
  }

  /** Appending a row with an id nobody holds keeps the ids distinct. */
  lemma AppendKeepsUniqueIds(t: Table, x: Row)
    requires !HasId(t, x.id)
    ensures UniqueIds(t) ==> UniqueIds(t + [x])
  {
    var t' := t + [x];
    forall a, b | UniqueIds(t) && 0 <= a < b < |t'| ensures t'[a].id != t'[b].id {
      assert t'[a] == t[a];
      if b == |t| {
        assert t'[b] == x;
      } else {
        assert t'[b] == t[b];
      }
    }
  }

  /** `SELECT ... WHERE user_id = uid`, in table order. */
  function Owned(t: Table, uid: int): (r: seq<Row>)
    ensures forall x :: x in r <==> x in t && x.userId == uid
    ensures |r| <= |t|
    ensures UniqueIds(t) ==> UniqueIds(r)
  {
    if |t| == 0 then []
    else
      var rest := Owned(t[1..], uid);
      OwnedStep(t, uid, rest);
      if t[0].userId == uid then [t[0]] + rest else rest
  }

  /** One step of the filter: the head row, kept or dropped, before the filtered tail. */
  lemma OwnedStep(t: Table, uid: int, rest: seq<Row>)
    requires |t| > 0
    requires forall x :: x in rest <==> x in t[1..] && x.userId == uid
    requires |rest| <= |t| - 1
    requires UniqueIds(t[1..]) ==> UniqueIds(rest)
    ensures var r := if t[0].userId == uid then [t[0]] + rest else rest;
            && (forall x :: x in r <==> x in t && x.userId == uid)
            && |r| <= |t|
            && (UniqueIds(t) ==> UniqueIds(r))
  {
    assert t == [t[0]] + t[1..];
    if UniqueIds(t) {
      assert UniqueIds(t[1..]) by {
        forall i, j | 0 <= i < j < |t[1..]| ensures t[1..][i].id != t[1..][j].id {
          assert t[1..][i] == t[i + 1] && t[1..][j] == t[j + 1];
        }
      }
      forall x | x in rest ensures x.id != t[0].id {
        var k :| 0 <= k < |t[1..]| && t[1..][k] == x;
        assert t[k + 1] == x;
      }
      if t[0].userId == uid {
        var r := [t[0]] + rest;
        forall i, j | 0 <= i < j < |r| ensures r[i].id != r[j].id {
          assert r[j] == rest[j - 1] && r[j] in rest;
          if i > 0 {
            assert r[i] == rest[i - 1];
          }
        }
      }
    }
  }

  predicate StrictlyAscending(s: seq<Row>) {
    forall i, j :: 0 <= i < j < |s| ==> s[i].id < s[j].id
  }

  /** Insert a row into a strictly ascending sequence whose ids it does not share. */
  function InsertById(x: Row, s: seq<Row>): (r: seq<Row>)
    requires StrictlyAscending(s)
    requires forall y :: y in s ==> y.id != x.id
    ensures StrictlyAscending(r)
    ensures forall y :: y in r <==> y == x || y in s
    ensures |r| == |s| + 1
  {
    if |s| == 0 || x.id < s[0].id then [x] + s
    else
      var rest := InsertById(x, s[1..]);
      assert forall y :: y in rest ==> s[0].id < y.id by {
        forall y | y in rest ensures s[0].id < y.id {
          if y != x {
            var k :| 0 <= k < |s[1..]| && s[1..][k] == y;
            assert s[k + 1] == y;
          }
        }
      }
      [s[0]] + rest
  }

  /** `ORDER BY id ASC` on rows with distinct ids. */
  function SortById(s: seq<Row>): (r: seq<Row>)
    requires UniqueIds(s)
    ensures StrictlyAscending(r)
    ensures forall y :: y in r <==> y in s
    ensures |r| == |s|
  {
    if |s| == 0 then []
    else
      assert forall y :: y in s[1..] ==> y.id != s[0].id by {
        forall y | y in s[1..] ensures y.id != s[0].id {
          var k :| 0 <= k < |s[1..]| && s[1..][k] == y;
          assert s[k + 1] == y;
        }
      }
      InsertById(s[0], SortById(s[1..]))
  }

  /** The caller's rows as the list query orders them. */
  function Ordered(t: Table, uid: int): (r: seq<Row>)
    requires UniqueIds(t)
    ensures StrictlyAscending(r)
    ensures forall x :: x in r <==> x in t && x.userId == uid
    ensures |r| == |Owned(t, uid)|
  {
    SortById(Owned(t, uid))
  }

  /**
   * There is one ascending arrangement of a set of rows: two strictly
   * ascending sequences with the same members are equal. So `Ordered` is
   * the only answer `ORDER BY id` can give.
   */
  lemma {:induction false} AscendingArrangementUnique(a: seq<Row>, b: seq<Row>)
    requires StrictlyAscending(a) && StrictlyAscending(b)
    requires forall x :: x in a <==> x in b
    ensures a == b
    decreases |a|
  {
    if |a| == 0 {
      FirstIsMember(b);
    } else {
      SameHead(a, b);
      SameTailMembers(a, b);
      AscendingArrangementUnique(a[1..], b[1..]);
      assert a == [a[0]] + a[1..] && b == [b[0]] + b[1..];
    }
  }

  /** Two non-empty ascending sequences with the same members start with the same row. */
  lemma SameHead(a: seq<Row>, b: seq<Row>)
    requires StrictlyAscending(a) && StrictlyAscending(b)
    requires forall x :: x in a <==> x in b
    requires |a| > 0
    ensures |b| > 0 && a[0] == b[0]
  {
    assert a[0] in b;
    assert b[0] in a;
    var i :| 0 <= i < |a| && a[i] == b[0];
    var j :| 0 <= j < |b| && b[j] == a[0];
    assert a[0].id <= a[i].id;
    assert b[0].id <= b[j].id;
  }

  /** Dropping the shared first row of two ascending sequences with the same members leaves the same members. */
  lemma SameTailMembers(a: seq<Row>, b: seq<Row>)
    requires StrictlyAscending(a) && StrictlyAscending(b)
    requires forall x :: x in a <==> x in b
    requires |a| > 0 && |b| > 0 && a[0] == b[0]
    ensures forall x :: x in a[1..] <==> x in b[1..]
  {
    forall x ensures x in a[1..] ==> x in b[1..] {
      if x in a[1..] {
        var k :| 0 <= k < |a[1..]| && a[1..][k] == x;
        assert a[k + 1] == x && a[0].id < x.id;
        assert x in a && x in b;
        var m :| 0 <= m < |b| && b[m] == x;
        assert m != 0;
        assert b[1..][m - 1] == x;
      }
    }
    forall x ensures x in b[1..] ==> x in a[1..] {
      if x in b[1..] {
        var k :| 0 <= k < |b[1..]| && b[1..][k] == x;
        assert b[k + 1] == x && b[0].id < x.id;
        assert x in b && x in a;
        var m :| 0 <= m < |a| && a[m] == x;
        assert m != 0;
        assert a[1..][m - 1] == x;
      }
    }
  }

  lemma FirstIsMember(s: seq<Row>)
    ensures |s| > 0 ==> s[0] in s
  {
  }

  /** In an ascending arrangement, the members before position k are exactly those with a smaller id. */
  lemma RowsBefore(s: seq<Row>, k: int, x: Row)
    requires StrictlyAscending(s)
    requires 0 <= k < |s|
    requires x in s
    ensures x in s[..k] <==> x.id < s[k].id
  {
    var i :| 0 <= i < |s| && s[i] == x;
    if i < k { assert s[..k][i] == x; }
    if x in s[..k] {
      var m :| 0 <= m < k && s[..k][m] == x;
      assert s[m] == x;
    }
  }
}

=== FILE: task_update.dfy ===
/**
 * PUT /tasks/:id (tasks.ts): the handler turns every key of the raw
 * request body into `key = $i` in the SET clause, collects the values in
 * the same order, appends the caller's id and the task id as `$n+1` and
 * `$n+2`, and runs the statement. The statement's execution is modelled
 * on the table so that the builder can be checked against the column-wise
 * merge it is meant to perform.
 */
module TaskUpdate {
  import opened Wrappers
  import opened Js
  import opened Errors
  import opened TaskRows
  import opened Tasks
  import opened Postgres
  import TaskSchema
  import Zod
  import Validation

  const NoFieldsMessage := "Atleast one field must be provided for an update"
  const NoFields := AppError(NoFieldsMessage, 400)

  /* ----- The statement ----- */

  /** `key = $placeholder` */
  datatype Assignment = Assignment(key: string, placeholder: nat)

  /** `UPDATE tasks SET <assignments> WHERE user_id = $<userPlaceholder> AND id = $<idPlaceholder> RETURNING *` */
  datatype Statement = Statement(assignments: seq<Assignment>, userPlaceholder: nat, idPlaceholder: nat)

  /** `keys.map((key, index) => `${key} = $${index + 1}`)`, numbering from `start + 1`. */
  function SetClauseFrom(keys: seq<string>, start: nat): seq<Assignment> {
    seq(|keys|, i requires 0 <= i < |keys| => Assignment(keys[i], start + i + 1))
  }

  /** `keys.map(key => updates[key])`, as the driver sends each value. */
  function BodyParams(body: Body): (ps: seq<Param>)
    ensures |ps| == |body| && forall i :: 0 <= i < |body| ==> ps[i] == DriverParam(body[i].value)
  {
    seq(|body|, i requires 0 <= i < |body| => DriverParam(body[i].value))
  }

  /** The statement and parameter list the handler builds; `id` is `parseInt`'s result. */
  function BuildUpdate(body: Body, uid: int, id: Option<int>): (r: (Statement, seq<Param>))
    requires DistinctKeys(body)
    // key i is written from placeholder $(i+1), which carries updates[key i]
    ensures |r.0.assignments| == |body| && |r.1| == |body| + 2
    ensures forall i :: 0 <= i < |body| ==>
              && r.0.assignments[i].key == Keys(body)[i] && r.0.assignments[i].placeholder == i + 1
              && Lookup(body, Keys(body)[i]).Some? && r.1[i] == DriverParam(Lookup(body, Keys(body)[i]).value)
    // the caller and the task id come last, as $(n+1) and $(n+2)
    ensures r.0.userPlaceholder == |body| + 1 && r.0.idPlaceholder == |body| + 2
    ensures r.1[|body|] == NumberParam(uid)
    ensures r.1[|body| + 1] == ArgParam(id)
    ensures PlaceholdersExact(r.0, |r.1|)
  {
    var values := BodyParams(body);
    var stmt := Statement(SetClauseFrom(Keys(body), 0), |values| + 1, |values| + 2);
    forall i | 0 <= i < |body|
      ensures Lookup(body, body[i].key) == Some(body[i].value)
    {
    }
    (stmt, values + ArgParams([Some(uid), id]))
  }

  /** The placeholders the statement uses are exactly $1 .. $count. */
  predicate PlaceholdersExact(stmt: Statement, count: nat) {
    && |stmt.assignments| + 2 == count
    && (forall i :: 0 <= i < |stmt.assignments| ==> stmt.assignments[i].placeholder == i + 1)
    && stmt.userPlaceholder == count - 1
    && stmt.idPlaceholder == count
  }

  /* ----- Executing the statement ----- */

  /** The columns of the tasks table the service reads and writes. */
  datatype Column = IdColumn | TitleColumn | DescriptionColumn | CompletedColumn | UserIdColumn

  /** How the server resolves a key spliced into the SET clause: exact column names only. */
  function ColumnNamed(key: string): Option<Column> {
    if key == "id" then Some(IdColumn)
    else if key == "title" then Some(TitleColumn)
    else if key == "description" then Some(DescriptionColumn)
    else if key == "completed" then Some(CompletedColumn)
    else if key == "user_id" then Some(UserIdColumn)
    else None
  }

  /** The column types assumed for the tasks table (its definition is not part of this model). */
  function ColumnType(c: Column): SqlType {
    match c
    case IdColumn => Integer
    case UserIdColumn => Integer
    case TitleColumn => TextType
    case DescriptionColumn => TextType
    case CompletedColumn => Boolean
  }

  /** A row while the statement rewrites it: one datum per column, NULL allowed until the row is stored. */
  datatype Draft = Draft(id: Datum, title: Datum, description: Datum, completed: Datum, userId: Datum)

  function FromRow(row: Row): Draft {
    Draft(DInt(row.id), DText(row.title),
          match row.description case Some(s) => DText(s) case None => DNull,
          DBool(row.completed), DInt(row.userId))
  }

  /** Each column holds a datum of its type, or NULL. */
  predicate WellTyped(d: Draft) {
    && Typed(Integer, d.id) && Typed(TextType, d.title) && Typed(TextType, d.description)
    && Typed(Boolean, d.completed) && Typed(Integer, d.userId)
  }

  /**
   * Storing a draft: `None` when a NOT NULL column would hold NULL. Every
   * column but `description` is assumed NOT NULL.
   */
  function ToRow(d: Draft): (r: Option<Row>)
    ensures WellTyped(d) ==> (r.None? <==> d.id.DNull? || d.title.DNull? || d.completed.DNull? || d.userId.DNull?)
  {
    match (d.id, d.title, d.completed, d.userId)
    case (DInt(id), DText(title), DBool(completed), DInt(uid)) =>
      (match d.description
       case DText(s) => Some(Row(id, title, Some(s), completed, uid))
       case DNull => Some(Row(id, title, None, completed, uid))
       case _ => None)
    case _ => None
  }

  /** A stored row read back and stored again is itself. */
  lemma RowRoundTrip(row: Row)
    ensures WellTyped(FromRow(row)) && ToRow(FromRow(row)) == Some(row)
  {
  }

  /** Set one column of a draft. */
  function AssignColumn(d: Draft, c: Column, v: Datum): Draft {
    match c
    case IdColumn => d.(id := v)
    case UserIdColumn => d.(userId := v)
    case TitleColumn => d.(title := v)
    case DescriptionColumn => d.(description := v)
    case CompletedColumn => d.(completed := v)
  }

  /** Every key names a column. */
  predicate ColumnsExist(clause: seq<Assignment>) {
    forall i :: 0 <= i < |clause| ==> ColumnNamed(clause[i].key).Some?
  }

  /** Every placeholder of the clause is among $1 .. $count. */
  predicate PlaceholdersIn(clause: seq<Assignment>, count: nat) {
    forall i :: 0 <= i < |clause| ==> 1 <= clause[i].placeholder <= count
  }

  /** Apply the SET clause to one row, left to right. */
  function ApplySet(d: Draft, clause: seq<Assignment>, datums: seq<Datum>): Draft
    requires ColumnsExist(clause) && PlaceholdersIn(clause, |datums|)
    decreases |clause|
  {
    if |clause| == 0 then d
    else
      var a := clause[0];
      ApplySet(AssignColumn(d, ColumnNamed(a.key).value, datums[a.placeholder - 1]), clause[1..], datums)
  }

  /**
   * The parameter types the server infers: each SET placeholder takes its
   * column's type, the two in the WHERE clause are integers.
   */
  function ParamTypes(stmt: Statement): (types: seq<SqlType>)
    requires ColumnsExist(stmt.assignments)
    ensures |types| == |stmt.assignments| + 2
  {
    seq(|stmt.assignments|, i requires 0 <= i < |stmt.assignments| =>
          ColumnType(ColumnNamed(stmt.assignments[i].key).value)) + KeyTypes
  }

  /**
   * The statement as the server runs it: unknown columns are refused when
   * the text is analysed, then every parameter is converted to its type,
   * and only then is the row `user_id = $n+1 AND id = $n+2` looked up and
   * rewritten, subject to NOT NULL and then to the primary key. A NULL key
   * matches no row.
   */
  function Execute(t: Table, stmt: Statement, params: seq<Param>): (r: (Table, Result<seq<Row>, Thrown>))
    requires UniqueIds(t)
    ensures r.1.Err? ==> r.0 == t
    ensures r.1.Ok? && |r.1.value| == 0 ==> r.0 == t
    ensures UniqueIds(r.0)
  {
    if !PlaceholdersExact(stmt, |params|) then (t, Err(DatabaseError(ProtocolViolation)))
    else if !ColumnsExist(stmt.assignments) then (t, Err(DatabaseError(UndefinedColumn)))
    else
      match BindAll(ParamTypes(stmt), params)
      case Err(c) => (t, Err(DatabaseError(c)))
      case Ok(datums) =>
        match (datums[stmt.userPlaceholder - 1], datums[stmt.idPlaceholder - 1])
        case (DInt(uid), DInt(id)) => WriteOwned(t, uid, id, stmt.assignments, datums)
        case _ => (t, Ok([]))
  }

  /** The row step of the statement: rewrite the owned row with that id, subject to NOT NULL and the primary key. */
  function WriteOwned(t: Table, uid: int, id: int, clause: seq<Assignment>, datums: seq<Datum>)
    : (r: (Table, Result<seq<Row>, Thrown>))
    requires UniqueIds(t) && ColumnsExist(clause) && PlaceholdersIn(clause, |datums|)
    ensures r.1.Err? ==> r.0 == t
    ensures r.1.Ok? && |r.1.value| == 0 ==> r.0 == t
    ensures UniqueIds(r.0)
  {
    var i := FindOwned(t, uid, id);
    if i == -1 then (t, Ok([]))
    else
      match ToRow(ApplySet(FromRow(t[i]), clause, datums))
      case None => (t, Err(DatabaseError(NotNullViolation)))
      case Some(updated) =>
        if updated.id != t[i].id && HasId(t, updated.id) then (t, Err(DatabaseError(UniqueViolation)))
        else
          ReplaceKeepsUniqueIds(t, i, updated);
          (t[i := updated], Ok([updated]))
  }

  lemma ReplaceKeepsUniqueIds(t: Table, i: int, x: Row)
    requires UniqueIds(t) && 0 <= i < |t|
    requires x.id == t[i].id || !HasId(t, x.id)
    ensures UniqueIds(t[i := x])
  {
    var t' := t[i := x];
    forall a, b | 0 <= a < b < |t'| ensures t'[a].id != t'[b].id {
      if a == i || b == i {
        if x.id != t[i].id {
          var other := if a == i then b else a;
          assert t[other].id != x.id;
        }
      }
    }
  }

  /* ----- The intended effect ----- */

  /** Every body key names a column. */
  predicate KeysAreColumns(body: Body) {
    forall i :: 0 <= i < |body| ==> ColumnNamed(body[i].key).Some?
  }

  /** The server's conversion of one body value to its column's type. */
  function FieldInput(f: Field): Result<Datum, string>
    requires ColumnNamed(f.key).Some?
  {
    Input(ColumnType(ColumnNamed(f.key).value), DriverParam(f.value))
  }

  /** Every body key names a column, and its column's type accepts its value. */
  predicate BodyFits(body: Body) {
    forall i :: 0 <= i < |body| ==> ColumnNamed(body[i].key).Some? && FieldInput(body[i]).Ok?
  }

  /** The error of the first body value its column's type refuses, if any. */
  function BodyBindError(body: Body): (e: Option<string>)
    requires KeysAreColumns(body)
    ensures e.None? <==> BodyFits(body)
    ensures e.Some? ==> exists i :: 0 <= i < |body| && FieldInput(body[i]) == Err(e.value)
    decreases |body|
  {
    if |body| == 0 then None
    else
      assert forall i :: 1 <= i < |body| ==> body[i] == body[1..][i - 1];
      match FieldInput(body[0])
      case Err(c) => Some(c)
      case Ok(_) => BodyBindError(body[1..])
  }

  /** The error binding the whole parameter list raises: the body's values first, then owner and id. */
  function UpdateBindError(body: Body, uid: int, id: Option<int>): (e: Option<string>)
    requires KeysAreColumns(body)
    ensures e.Some? ==> e.value == CharacterNotInRepertoire || e.value == InvalidTextRepresentation || e.value == NumericValueOutOfRange
  {
    if BodyBindError(body).Some? then BodyBindError(body) else KeyError(uid, id)
  }

  /** The datum a column takes from a body value, or `current` when the body does not name it. */
  function ColumnDatum(v: Prop, c: Column, current: Datum): Datum {
    match v
    case None => current
    case Some(j) =>
      match Input(ColumnType(c), DriverParam(j))
      case Ok(x) => x
      case Err(_) => current
  }

  /**
   * A partial update as intended, column by column and without placeholders:
   * a column the body names takes the body's value, every other column
   * keeps its own.
   */
  function MergeBody(d: Draft, body: Body): Draft {
    Draft(ColumnDatum(Lookup(body, "id"), IdColumn, d.id),
          ColumnDatum(Lookup(body, "title"), TitleColumn, d.title),
          ColumnDatum(Lookup(body, "description"), DescriptionColumn, d.description),
          ColumnDatum(Lookup(body, "completed"), CompletedColumn, d.completed),
          ColumnDatum(Lookup(body, "user_id"), UserIdColumn, d.userId))
  }

  /** The body sets a NOT NULL column to `null`. */
  predicate NullsRequired(body: Body) {
    || Lookup(body, "id") == Some(JNull)
    || Lookup(body, "title") == Some(JNull)
    || Lookup(body, "completed") == Some(JNull)
    || Lookup(body, "user_id") == Some(JNull)
  }

  /** An absent value, or one the type accepts. */
  predicate PropFits(ty: SqlType, v: Prop) {
    v.Some? ==> Input(ty, DriverParam(v.value)).Ok?
  }

  /** A body value its column accepts, read back by name. */
  lemma LookupFits(body: Body, key: string, c: Column)
    requires BodyFits(body) && ColumnNamed(key) == Some(c)
    ensures PropFits(ColumnType(c), Lookup(body, key))
  {
    if Lookup(body, key).Some? {
      var i :| 0 <= i < |body| && body[i] == Field(key, Lookup(body, key).value);
    }
  }

  /** The datum a column takes is of its type, and NULL exactly when the body sends `null` or keeps a NULL. */
  lemma ColumnDatumFacts(v: Prop, c: Column, current: Datum)
    requires v.Some? ==> Input(ColumnType(c), DriverParam(v.value)).Ok?
    ensures Typed(ColumnType(c), current) ==> Typed(ColumnType(c), ColumnDatum(v, c, current))
    ensures ColumnDatum(v, c, current).DNull? <==> v == Some(JNull) || (v.None? && current.DNull?)
  {
  }

  /** The merge of a body that fits can be stored exactly when it sets no NOT NULL column to `null`. */
  lemma MergeNulls(row: Row, body: Body)
    requires BodyFits(body)
    ensures WellTyped(MergeBody(FromRow(row), body))
    ensures ToRow(MergeBody(FromRow(row), body)).None? <==> NullsRequired(body)
  {
    BodyValuesFit(body);
    ColumnNulls(FromRow(row), Lookup(body, "id"), Lookup(body, "title"), Lookup(body, "description"),
                Lookup(body, "completed"), Lookup(body, "user_id"));
  }

  /** Values for the five columns, each absent or accepted by its column. */
  predicate ValuesFit(id: Prop, title: Prop, description: Prop, completed: Prop, uid: Prop) {
    && PropFits(Integer, id) && PropFits(TextType, title) && PropFits(TextType, description)
    && PropFits(Boolean, completed) && PropFits(Integer, uid)
  }

  /** A body that fits gives each column a value it accepts. */
  lemma BodyValuesFit(body: Body)
    requires BodyFits(body)
    ensures ValuesFit(Lookup(body, "id"), Lookup(body, "title"), Lookup(body, "description"),
                      Lookup(body, "completed"), Lookup(body, "user_id"))
  {
    LookupFits(body, "id", IdColumn);
    LookupFits(body, "title", TitleColumn);
    LookupFits(body, "description", DescriptionColumn);
    LookupFits(body, "completed", CompletedColumn);
    LookupFits(body, "user_id", UserIdColumn);
  }

  /** Whether the column-wise merge of five accepted values into a stored row can be stored. */
  lemma ColumnNulls(d: Draft, id: Prop, title: Prop, description: Prop, completed: Prop, uid: Prop)
    requires WellTyped(d) && !d.id.DNull? && !d.title.DNull? && !d.completed.DNull? && !d.userId.DNull?
    requires ValuesFit(id, title, description, completed, uid)
    ensures var m := Draft(ColumnDatum(id, IdColumn, d.id), ColumnDatum(title, TitleColumn, d.title),
                           ColumnDatum(description, DescriptionColumn, d.description),
                           ColumnDatum(completed, CompletedColumn, d.completed), ColumnDatum(uid, UserIdColumn, d.userId));
            && WellTyped(m)
            && (ToRow(m).None? <==>
                  id == Some(JNull) || title == Some(JNull) || completed == Some(JNull) || uid == Some(JNull))
  {
    ColumnDatumFacts(id, IdColumn, d.id);
    ColumnDatumFacts(title, TitleColumn, d.title);
    ColumnDatumFacts(description, DescriptionColumn, d.description);
    ColumnDatumFacts(completed, CompletedColumn, d.completed);
    ColumnDatumFacts(uid, UserIdColumn, d.userId);
  }

  /**
   * The row a fitting body without NOT NULL nulls makes of `row`: read
   * back, it is the column-wise merge; a column the body does not name
   * keeps its value.
   */
  function Merged(row: Row, body: Body): (m: Row)
    requires BodyFits(body) && !NullsRequired(body)
    ensures FromRow(m) == MergeBody(FromRow(row), body)
    ensures Lookup(body, "id").None? ==> m.id == row.id
    ensures Lookup(body, "title").None? ==> m.title == row.title
    ensures Lookup(body, "description").None? ==> m.description == row.description
    ensures Lookup(body, "completed").None? ==> m.completed == row.completed
    ensures Lookup(body, "user_id").None? ==> m.userId == row.userId
  {
    MergeNulls(row, body);
    var m := ToRow(MergeBody(FromRow(row), body)).value;
    StoredDraft(MergeBody(FromRow(row), body));
    KeptColumns(row, m, Lookup(body, "id"), Lookup(body, "title"), Lookup(body, "description"),
                Lookup(body, "completed"), Lookup(body, "user_id"));
    m
  }

  /** A stored merge keeps every column no value was given for. */
  lemma KeptColumns(row: Row, m: Row, id: Prop, title: Prop, description: Prop, completed: Prop, uid: Prop)
    requires FromRow(m) == Draft(ColumnDatum(id, IdColumn, FromRow(row).id), ColumnDatum(title, TitleColumn, FromRow(row).title),
                                 ColumnDatum(description, DescriptionColumn, FromRow(row).description),
                                 ColumnDatum(completed, CompletedColumn, FromRow(row).completed),
                                 ColumnDatum(uid, UserIdColumn, FromRow(row).userId))
    ensures id.None? ==> m.id == row.id
    ensures title.None? ==> m.title == row.title
    ensures description.None? ==> m.description == row.description
    ensures completed.None? ==> m.completed == row.completed
    ensures uid.None? ==> m.userId == row.userId
  {
  }

  /** A well-typed draft that can be stored reads back as itself. */
  lemma StoredDraft(d: Draft)
    requires WellTyped(d) && ToRow(d).Some?
    ensures FromRow(ToRow(d).value) == d
  {
  }

  /**
   * The datum a column takes from a JSON value: a string without U+0000
   * into a text column as it is, a number as its digits, a boolean into a boolean
   * column as itself, a number an integer column accepts as itself, and
   * `null` as NULL.
   */
  lemma ColumnDatumValues(v: Json, c: Column, current: Datum)
    ensures v.JNull? ==> ColumnDatum(Some(v), c, current) == DNull
    ensures v.JStr? && ColumnType(c) == TextType && '\0' !in v.s ==> ColumnDatum(Some(v), c, current) == DText(v.s)
    ensures v.JNum? && ColumnType(c) == TextType ==> ColumnDatum(Some(v), c, current) == DText(NumberText(v.n))
    ensures v.JBool? && ColumnType(c) == Boolean ==> ColumnDatum(Some(v), c, current) == DBool(v.b)
    ensures v.JNum? && ColumnType(c) == Integer && InRange(Integer, v.n) ==> ColumnDatum(Some(v), c, current) == DInt(v.n)
  {
    if v.JBool? {
      BoolInput(v.b);
    }
    if v.JNum? {
      NumberInput(Integer, v.n);
      NumberTextEncodes(v.n);
    }
  }

  /**
   * What each named column holds after the merge: a number an integer
   * column accepts is stored as itself, a text column takes a string as
   * it is and a number as its digits, a boolean column takes a boolean,
   * and `null` empties the description.
   */
  lemma MergedValues(row: Row, body: Body)
    requires BodyFits(body) && !NullsRequired(body)
    ensures var m := Merged(row, body);
            && (Lookup(body, "id").Some? && Lookup(body, "id").value.JNum? ==> m.id == Lookup(body, "id").value.n)
            && (Lookup(body, "user_id").Some? && Lookup(body, "user_id").value.JNum? ==>
                  m.userId == Lookup(body, "user_id").value.n)
            && (Lookup(body, "title").Some? && Lookup(body, "title").value.JStr? ==> m.title == Lookup(body, "title").value.s)
            && (Lookup(body, "title").Some? && Lookup(body, "title").value.JNum? ==>
                  m.title == NumberText(Lookup(body, "title").value.n))
            && (Lookup(body, "description").Some? && Lookup(body, "description").value.JStr? ==>
                  m.description == Some(Lookup(body, "description").value.s))
            && (Lookup(body, "description") == Some(JNull) ==> m.description.None?)
            && (Lookup(body, "completed").Some? && Lookup(body, "completed").value.JBool? ==>
                  m.completed == Lookup(body, "completed").value.b)
  {
    var m := Merged(row, body);
    MergedKeyValues(FromRow(row), body);
    BodyValuesFit(body);
    StoredValues(row, m, Lookup(body, "id"), Lookup(body, "title"), Lookup(body, "description"),
                 Lookup(body, "completed"), Lookup(body, "user_id"));
  }

  /** What a stored merge holds, column by column, given the values it merged. */
  lemma StoredValues(row: Row, m: Row, id: Prop, title: Prop, description: Prop, completed: Prop, uid: Prop)
    requires FromRow(m) == Draft(ColumnDatum(id, IdColumn, FromRow(row).id), ColumnDatum(title, TitleColumn, FromRow(row).title),
                                 ColumnDatum(description, DescriptionColumn, FromRow(row).description),
                                 ColumnDatum(completed, CompletedColumn, FromRow(row).completed),
                                 ColumnDatum(uid, UserIdColumn, FromRow(row).userId))
    requires id.Some? && id.value.JNum? ==> ColumnDatum(id, IdColumn, FromRow(row).id) == DInt(id.value.n)
    requires uid.Some? && uid.value.JNum? ==> ColumnDatum(uid, UserIdColumn, FromRow(row).userId) == DInt(uid.value.n)
    requires PropFits(TextType, title) && PropFits(TextType, description)
    ensures id.Some? && id.value.JNum? ==> m.id == id.value.n
    ensures uid.Some? && uid.value.JNum? ==> m.userId == uid.value.n
    ensures title.Some? && title.value.JStr? ==> m.title == title.value.s
    ensures title.Some? && title.value.JNum? ==> m.title == NumberText(title.value.n)
    ensures description.Some? && description.value.JStr? ==> m.description == Some(description.value.s)
    ensures description == Some(JNull) ==> m.description.None?
    ensures completed.Some? && completed.value.JBool? ==> m.completed == completed.value.b
  {
    if title.Some? {
      ColumnDatumValues(title.value, TitleColumn, FromRow(row).title);
    }
    if description.Some? {
      ColumnDatumValues(description.value, DescriptionColumn, FromRow(row).description);
    }
    if completed.Some? {
      ColumnDatumValues(completed.value, CompletedColumn, FromRow(row).completed);
    }
  }

  /** The key columns of the merge, for numbers the body sends them. */
  lemma MergedKeyValues(d: Draft, body: Body)
    requires BodyFits(body)
    ensures Lookup(body, "id").Some? && Lookup(body, "id").value.JNum? ==>
              MergeBody(d, body).id == DInt(Lookup(body, "id").value.n)
    ensures Lookup(body, "user_id").Some? && Lookup(body, "user_id").value.JNum? ==>
              MergeBody(d, body).userId == DInt(Lookup(body, "user_id").value.n)
  {
    LookupFits(body, "id", IdColumn);
    LookupFits(body, "user_id", UserIdColumn);
    if Lookup(body, "id").Some? {
      MergedIntColumn(Lookup(body, "id").value, IdColumn, d.id);
    }
    if Lookup(body, "user_id").Some? {
      MergedIntColumn(Lookup(body, "user_id").value, UserIdColumn, d.userId);
    }
  }

  /** A number an integer column accepts is stored as itself. */
  lemma MergedIntColumn(v: Json, c: Column, current: Datum)
    requires ColumnType(c) == Integer && Input(Integer, DriverParam(v)).Ok?
    ensures v.JNum? ==> ColumnDatum(Some(v), c, current) == DInt(v.n)
  {
    if v.JNum? {
      NumberInput(Integer, v.n);
    }
  }

  /** One field in front of a body that does not name its column again. */
  lemma MergeStep(d: Draft, f: Field, rest: Body)
    requires ColumnNamed(f.key).Some? && FieldInput(f).Ok?
    requires Lookup(rest, f.key).None?
    ensures MergeBody(d, [f] + rest) == MergeBody(AssignColumn(d, ColumnNamed(f.key).value, FieldInput(f).value), rest)
  {
    var body := [f] + rest;
    assert body[0] == f && body[1..] == rest;
    var d' := AssignColumn(d, ColumnNamed(f.key).value, FieldInput(f).value);
    if f.key == "id" {
      assert d' == d.(id := FieldInput(f).value);
    } else if f.key == "title" {
      assert d' == d.(title := FieldInput(f).value);
    } else if f.key == "description" {
      assert d' == d.(description := FieldInput(f).value);
    } else if f.key == "completed" {
      assert d' == d.(completed := FieldInput(f).value);
    } else {
      assert f.key == "user_id";
      assert d' == d.(userId := FieldInput(f).value);
    }
  }

  /** Merging a body is writing its first field, then merging the rest. */
  lemma MergeFirstField(d: Draft, body: Body)
    requires |body| > 0 && DistinctKeys(body) && BodyFits(body)
    ensures MergeBody(d, body) ==
            MergeBody(AssignColumn(d, ColumnNamed(body[0].key).value, FieldInput(body[0]).value), body[1..])
  {
    var f, rest := body[0], body[1..];
    assert Lookup(rest, f.key).None? by {
      assert forall i :: 0 <= i < |rest| ==> rest[i] == body[i + 1];
    }
    assert [f] + rest == body;
    MergeStep(d, f, rest);
  }

  /** The datums bound for the body's values, in order. */
  predicate BoundFrom(body: Body, datums: seq<Datum>, start: nat)
    requires BodyFits(body)
  {
    && |datums| >= start + |body|
    && forall i :: 0 <= i < |body| ==> datums[start + i] == FieldInput(body[i]).value
  }

  /**
   * The builder is right: applying the SET clause built from the body's
   * keys, reading each placeholder from the values bound beside it, is the
   * column-wise merge of the body.
   */
  lemma {:induction false} ApplySetIsMerge(d: Draft, body: Body, datums: seq<Datum>, start: nat)
    requires DistinctKeys(body) && BodyFits(body) && BoundFrom(body, datums, start)
    ensures ColumnsExist(SetClauseFrom(Keys(body), start))
    ensures PlaceholdersIn(SetClauseFrom(Keys(body), start), |datums|)
    ensures ApplySet(d, SetClauseFrom(Keys(body), start), datums) == MergeBody(d, body)
    decreases |body|
  {
    ClauseFitsBody(body, datums, start);
    if |body| > 0 {
      var rest := body[1..];
      var d' := AssignColumn(d, ColumnNamed(body[0].key).value, FieldInput(body[0]).value);
      ApplySetFirst(d, body, datums, start);
      TailFitsBody(body, datums, start);
      ApplySetIsMerge(d', rest, datums, start + 1);
      MergeFirstField(d, body);
    }
  }

  /** Applying the clause is writing its first column, then applying the clause of the rest. */
  lemma ApplySetFirst(d: Draft, body: Body, datums: seq<Datum>, start: nat)
    requires |body| > 0 && BodyFits(body) && BoundFrom(body, datums, start)
    ensures ColumnsExist(SetClauseFrom(Keys(body), start))
    ensures PlaceholdersIn(SetClauseFrom(Keys(body), start), |datums|)
    ensures SetClauseFrom(Keys(body), start)[1..] == SetClauseFrom(Keys(body[1..]), start + 1)
    ensures ApplySet(d, SetClauseFrom(Keys(body), start), datums) ==
            ApplySet(AssignColumn(d, ColumnNamed(body[0].key).value, FieldInput(body[0]).value),
                     SetClauseFrom(Keys(body[1..]), start + 1), datums)
  {
    ClauseFitsBody(body, datums, start);
    var clause := SetClauseFrom(Keys(body), start);
    assert clause[1..] == SetClauseFrom(Keys(body[1..]), start + 1);
    assert datums[clause[0].placeholder - 1] == FieldInput(body[0]).value;
  }

  /** The rest of a body meets the same conditions, one placeholder further on. */
  lemma TailFitsBody(body: Body, datums: seq<Datum>, start: nat)
    requires |body| > 0 && DistinctKeys(body) && BodyFits(body) && BoundFrom(body, datums, start)
    ensures DistinctKeys(body[1..]) && BodyFits(body[1..]) && BoundFrom(body[1..], datums, start + 1)
  {
    assert forall i :: 0 <= i < |body[1..]| ==> body[1..][i] == body[i + 1];
  }

  /** The clause built from a body names columns exactly when the body's keys do. */
  lemma ClauseColumns(body: Body, start: nat)
    ensures ColumnsExist(SetClauseFrom(Keys(body), start)) <==> KeysAreColumns(body)
  {
    var clause := SetClauseFrom(Keys(body), start);
    assert forall i :: 0 <= i < |body| ==> clause[i].key == body[i].key;
  }

  /** The clause built from a body that fits names columns and reads placeholders that exist. */
  lemma ClauseFitsBody(body: Body, datums: seq<Datum>, start: nat)
    requires BodyFits(body) && BoundFrom(body, datums, start)
    ensures ColumnsExist(SetClauseFrom(Keys(body), start))
    ensures PlaceholdersIn(SetClauseFrom(Keys(body), start), |datums|)
  {
  }

  /* ----- Binding the built parameter list ----- */

  /** The types of the body's parameters: each one its column's. */
  function BodyTypes(body: Body): (types: seq<SqlType>)
    requires KeysAreColumns(body)
    ensures |types| == |body|
    ensures forall i :: 0 <= i < |body| ==> types[i] == ColumnType(ColumnNamed(body[i].key).value)
  {
    seq(|body|, i requires 0 <= i < |body| => ColumnType(ColumnNamed(body[i].key).value))
  }

  /** The values the body's parameters bind to, when all of them bind. */
  function BodyDatums(body: Body): (datums: seq<Datum>)
    requires BodyFits(body)
    ensures |datums| == |body| && BoundFrom(body, datums, 0)
  {
    seq(|body|, i requires 0 <= i < |body| => FieldInput(body[i]).value)
  }

  /** Binding the body's parameters fails with the first refused value, or yields its datums. */
  lemma {:induction false} BodyBinds(body: Body)
    requires KeysAreColumns(body)
    ensures BodyBindError(body).Some? ==> BindAll(BodyTypes(body), BodyParams(body)) == Err(BodyBindError(body).value)
    ensures BodyBindError(body).None? ==> BindAll(BodyTypes(body), BodyParams(body)) == Ok(BodyDatums(body))
    decreases |body|
  {
    if |body| > 0 {
      var rest := body[1..];
      assert forall i :: 0 <= i < |rest| ==> rest[i] == body[i + 1];
      assert BodyTypes(body)[1..] == BodyTypes(rest);
      assert BodyParams(body)[1..] == BodyParams(rest);
      BodyBinds(rest);
      if BodyBindError(body).None? {
        assert BodyDatums(body) == [FieldInput(body[0]).value] + BodyDatums(rest);
      }
    }
  }

  /** The statement and parameters the handler builds for a body, as the server receives them. */
  predicate Built(body: Body, uid: int, id: Option<int>, stmt: Statement, params: seq<Param>) {
    && stmt.assignments == SetClauseFrom(Keys(body), 0)
    && PlaceholdersExact(stmt, |params|)
    && params == BodyParams(body) + ArgParams([Some(uid), id])
  }

  lemma BuiltStatement(body: Body, uid: int, id: Option<int>)
    requires DistinctKeys(body)
    ensures Built(body, uid, id, BuildUpdate(body, uid, id).0, BuildUpdate(body, uid, id).1)
  {
  }

  /** The statement binds as the body's values and then the owner and the id do. */
  lemma BuiltBinds(body: Body, uid: int, id: Option<int>, stmt: Statement, params: seq<Param>)
    requires Built(body, uid, id, stmt, params) && KeysAreColumns(body)
    ensures ColumnsExist(stmt.assignments)
    ensures UpdateBindError(body, uid, id).Some? ==>
              BindAll(ParamTypes(stmt), params) == Err(UpdateBindError(body, uid, id).value)
    ensures UpdateBindError(body, uid, id).None? ==>
              && BodyFits(body) && id.Some?
              && BindAll(ParamTypes(stmt), params) == Ok(BodyDatums(body) + [DInt(uid), DInt(id.value)])
  {
    assert ParamTypes(stmt) == BodyTypes(body) + KeyTypes;
    BindAllConcat(BodyTypes(body), BodyParams(body), KeyTypes, ArgParams([Some(uid), id]));
    BodyBinds(body);
    KeysBind(uid, id);
  }

  /**
   * What the statement built from a body does to the table, in terms of
   * the body alone.
   */
  lemma BuiltUpdateRuns(t: Table, uid: int, id: Option<int>, body: Body)
    requires UniqueIds(t) && DistinctKeys(body)
    ensures var (stmt, params) := BuildUpdate(body, uid, id);
            var r := Execute(t, stmt, params);
            && (!KeysAreColumns(body) ==> r == (t, Err(DatabaseError(UndefinedColumn))))
            && (KeysAreColumns(body) && UpdateBindError(body, uid, id).Some? ==>
                  r == (t, Err(DatabaseError(UpdateBindError(body, uid, id).value))))
            && (KeysAreColumns(body) && UpdateBindError(body, uid, id).None? ==>
                  && BodyFits(body) && id.Some?
                  && var i := FindOwned(t, uid, id.value);
                  && (i == -1 ==> r == (t, Ok([])))
                  && (i >= 0 && NullsRequired(body) ==> r == (t, Err(DatabaseError(NotNullViolation))))
                  && (i >= 0 && !NullsRequired(body) ==>
                        var m := Merged(t[i], body);
                        r == if m.id != t[i].id && HasId(t, m.id) then (t, Err(DatabaseError(UniqueViolation)))
                             else (t[i := m], Ok([m]))))
  {
    var (stmt, params) := BuildUpdate(body, uid, id);
    BuiltStatement(body, uid, id);
    ClauseColumns(body, 0);
    if KeysAreColumns(body) {
      BuiltBinds(body, uid, id, stmt, params);
      if UpdateBindError(body, uid, id).None? {
        ExecuteWrites(t, uid, id.value, body, stmt, params);
      }
    }
  }

  /** Once everything binds, the statement rewrites the owned row with that id, if any, into its merge. */
  lemma ExecuteWrites(t: Table, uid: int, id: int, body: Body, stmt: Statement, params: seq<Param>)
    requires UniqueIds(t) && DistinctKeys(body) && BodyFits(body) && Built(body, uid, Some(id), stmt, params)
    requires ColumnsExist(stmt.assignments)
    requires BindAll(ParamTypes(stmt), params) == Ok(BodyDatums(body) + [DInt(uid), DInt(id)])
    ensures var r := Execute(t, stmt, params);
            var i := FindOwned(t, uid, id);
            && (i == -1 ==> r == (t, Ok([])))
            && (i >= 0 && NullsRequired(body) ==> r == (t, Err(DatabaseError(NotNullViolation))))
            && (i >= 0 && !NullsRequired(body) ==>
                  var m := Merged(t[i], body);
                  r == if m.id != t[i].id && HasId(t, m.id) then (t, Err(DatabaseError(UniqueViolation)))
                       else (t[i := m], Ok([m])))
  {
    var datums := BodyDatums(body) + [DInt(uid), DInt(id)];
    assert datums[stmt.userPlaceholder - 1] == DInt(uid) && datums[stmt.idPlaceholder - 1] == DInt(id);
    assert BoundFrom(body, datums, 0);
    ClauseFitsBody(body, datums, 0);
    assert Execute(t, stmt, params) == WriteOwned(t, uid, id, stmt.assignments, datums);
    var i := FindOwned(t, uid, id);
    if i >= 0 {
      ApplySetIsMerge(FromRow(t[i]), body, datums, 0);
      MergeNulls(t[i], body);
    }
  }

  /* ----- The handler ----- */

  /**
   * PUT /tasks/:id on the raw request body. The outcome, stated without the
   * statement: an empty body is refused; a key that is not a column is a
   * database error, and so is the first parameter its type refuses (the
   * body's values, then the owner, then the id); otherwise the caller's
   * task with that id, if any, becomes its column-wise merge with the body,
   * unless the merge sets a NOT NULL column to `null` or takes an id
   * another task holds.
   */
  function Update(t: Table, uid: int, id: Option<int>, body: Body): (r: (Table, Result<Row, Thrown>))
    requires UniqueIds(t) && DistinctKeys(body)
    ensures |body| == 0 ==> r == (t, Err(NoFields))
    ensures |body| > 0 && !KeysAreColumns(body) ==> r == (t, Err(DatabaseError(UndefinedColumn)))
    ensures |body| > 0 && KeysAreColumns(body) && UpdateBindError(body, uid, id).Some? ==>
              r == (t, Err(DatabaseError(UpdateBindError(body, uid, id).value)))
    ensures |body| > 0 && KeysAreColumns(body) && UpdateBindError(body, uid, id).None? ==>
              && BodyFits(body) && id.Some?
              && var i := FindOwned(t, uid, id.value);
              && (i == -1 ==> r == (t, Err(TaskNotFound)))
              && (i >= 0 && NullsRequired(body) ==> r == (t, Err(DatabaseError(NotNullViolation))))
              && (i >= 0 && !NullsRequired(body) ==>
                    var m := Merged(t[i], body);
                    r == if m.id != t[i].id && HasId(t, m.id) then (t, Err(DatabaseError(UniqueViolation)))
                         else (t[i := m], Ok(m)))
    ensures r.1.Err? ==> r.0 == t
    ensures UniqueIds(r.0)
  {
    if |Keys(body)| == 0 then (t, Err(NoFields))
    else
      var (stmt, params) := BuildUpdate(body, uid, id);
      BuiltUpdateRuns(t, uid, id, body);
      var (t', result) := Execute(t, stmt, params);
      match result
      case Err(e) => (t', Err(e))
      case Ok(rows) => if |rows| == 0 then (t', Err(TaskNotFound)) else (t', Ok(rows[0]))
  }

  /** The body's values bind when they fit, and the owner and id bind when they are integers in range. */
  lemma UpdateBindsInRange(body: Body, uid: int, id: Option<int>)
    requires KeysAreColumns(body)
    ensures UpdateBindError(body, uid, id).None? <==>
              BodyFits(body) && InRange(Integer, uid) && id.Some? && InRange(Integer, id.value)
  {
    KeyErrorCases(uid, id);
  }

  /** A body that does not name `user_id` leaves every other account's tasks as they were. */
  lemma UpdateKeepsOtherOwnersRows(t: Table, uid: int, id: Option<int>, body: Body, other: int)
    requires UniqueIds(t) && DistinctKeys(body) && other != uid
    requires Lookup(body, "user_id").None?
    ensures Owned(Update(t, uid, id, body).0, other) == Owned(t, other)
  {
    var r := Update(t, uid, id, body);
    if r.1.Ok? {
      var i := FindOwned(t, uid, id.value);
      ReplaceOwnRowKeepsOthers(t, i, Merged(t[i], body), uid, other);
    }
  }

  /* ----- The update as written lets a body move or renumber a task ----- */

  /**
   * A body naming one key the schema does not check, with a number, passes
   * validation: `{"user_id": n}` and `{"id": n}` reach the handler.
   */
  lemma KeyColumnBodyPasses(key: string, n: int,
                            defaults: Zod.IssueKind -> string, query: map<string, string>, params: map<string, string>)
    requires key !in TaskSchema.SchemaKeys
    ensures Validation.Validate(Zod.BodySchema(TaskSchema.UpdateIssues, defaults), Zod.Request([Field(key, JNum(n))], query, params))
            == Validation.CallNext
  {
    var body := [Field(key, JNum(n))];
    TaskSchema.UnknownKeysPassUpdate([], key, JNum(n));
    assert [] + [Field(key, JNum(n))] == body;
    Validation.BodySchemaOutcome(TaskSchema.UpdateIssues, defaults, Zod.Request(body, query, params));
  }

  /** A one-field body under a key column, with an integer in range: it binds and merges into that column only. */
  lemma KeyColumnMerge(row: Row, key: string, n: int)
    requires key == "id" || key == "user_id"
    requires InRange(Integer, n)
    ensures BodyFits([Field(key, JNum(n))]) && !NullsRequired([Field(key, JNum(n))])
    ensures Merged(row, [Field(key, JNum(n))]) == if key == "id" then row.(id := n) else row.(userId := n)
  {
    var body := [Field(key, JNum(n))];
    NumberInput(Integer, n);
    assert FieldInput(body[0]) == Ok(DInt(n));
    assert Lookup(body, "title").None? && Lookup(body, "description").None? && Lookup(body, "completed").None?;
  }

  /** The handler writes a body that names only `user_id`: the caller's task passes to that account. */
  lemma UpdateReassignsOwner(t: Table, uid: int, id: int, other: int)
    requires UniqueIds(t) && FindOwned(t, uid, id) >= 0
    requires InRange(Integer, uid) && InRange(Integer, id) && InRange(Integer, other)
    ensures var i := FindOwned(t, uid, id);
            Update(t, uid, Some(id), [Field("user_id", JNum(other))]) == (t[i := t[i].(userId := other)], Ok(t[i].(userId := other)))
  {
    var i := FindOwned(t, uid, id);
    KeyColumnMerge(t[i], "user_id", other);
    UpdateBindsInRange([Field("user_id", JNum(other))], uid, Some(id));
  }

  /** The same with `id` renumbers the task, here onto an id nobody holds. */
  lemma UpdateRenumbersTask(t: Table, uid: int, id: int, newId: int)
    requires UniqueIds(t) && FindOwned(t, uid, id) >= 0 && !HasId(t, newId)
    requires InRange(Integer, uid) && InRange(Integer, id) && InRange(Integer, newId)
    ensures var i := FindOwned(t, uid, id);
            Update(t, uid, Some(id), [Field("id", JNum(newId))]) == (t[i := t[i].(id := newId)], Ok(t[i].(id := newId)))
  {
    var i := FindOwned(t, uid, id);
    KeyColumnMerge(t[i], "id", newId);
    UpdateBindsInRange([Field("id", JNum(newId))], uid, Some(id));
  }

  /** One task, one account: after the update the owner no longer finds it and the other account does. */
  lemma TaskChangesHands()
    ensures var t := [Row(1, "Write report", None, false, 7)];
            var t' := Update(t, 7, Some(1), [Field("user_id", JNum(8))]).0;
            && Get(t', 7, Some(1)) == Err(TaskNotFound)
            && Get(t', 8, Some(1)) == Ok(Row(1, "Write report", None, false, 8))
  {
    var t := [Row(1, "Write report", None, false, 7)];
    UpdateReassignsOwner(t, 7, 1, 8);
    var t' := t[0 := t[0].(userId := 8)];
    KeyErrorCases(7, Some(1));
    KeyErrorCases(8, Some(1));
    assert FindOwned(t', 8, 1) == 0;
  }

  /* ----- The update with the body restricted to the schema's keys ----- */

  /** The fields of a body whose keys the update schema checks, in order. */
  function AllowListed(body: Body): (kept: Body)
    ensures forall f :: f in kept <==> f in body && f.key in TaskSchema.SchemaKeys
    ensures DistinctKeys(body) ==> DistinctKeys(kept)
  {
    if |body| == 0 then []
    else
      var rest := AllowListed(body[1..]);
      var f := body[0];
      assert forall g :: g in body <==> g == f || g in body[1..];
      if f.key in TaskSchema.SchemaKeys then
        assert forall i :: 1 <= i < |[f] + rest| ==> ([f] + rest)[i] == rest[i - 1];
        assert DistinctKeys(body) ==> forall g :: g in rest ==> g.key != f.key;
        [f] + rest
      else rest
  }

  /** The restriction keeps the value of every key the schema checks. */
  lemma {:induction false} AllowListedLookup(body: Body, key: string)
    requires key in TaskSchema.SchemaKeys
    ensures Lookup(AllowListed(body), key) == Lookup(body, key)
    decreases |body|
  {
    if |body| > 0 {
      AllowListedLookup(body[1..], key);
      var rest := AllowListed(body[1..]);
      if body[0].key in TaskSchema.SchemaKeys {
        assert ([body[0]] + rest)[1..] == rest;
      }
    }
  }

  /** Every key the schema checks is a column other than the key columns. */
  lemma SchemaKeysAreColumns(key: string)
    requires key in TaskSchema.SchemaKeys
    ensures ColumnNamed(key).Some? && key != "id" && key != "user_id"
  {
  }

  /** The restriction drops the key columns, which the schema does not check; every key it keeps is a column. */
  lemma AllowListedDropsKeyColumns(body: Body)
    ensures Lookup(AllowListed(body), "id").None?
    ensures Lookup(AllowListed(body), "user_id").None?
    ensures KeysAreColumns(AllowListed(body))
  {
    var kept := AllowListed(body);
    forall i | 0 <= i < |kept| ensures ColumnNamed(kept[i].key).Some? && kept[i].key != "id" && kept[i].key != "user_id" {
      assert kept[i] in kept;
      SchemaKeysAreColumns(kept[i].key);
    }
  }

  /** A body that names neither `id` nor `user_id` changes a task's other columns only. */
  lemma UpdateWithoutKeyColumns(t: Table, uid: int, id: Option<int>, body: Body)
    requires UniqueIds(t) && DistinctKeys(body)
    requires Lookup(body, "id").None? && Lookup(body, "user_id").None?
    ensures var r := Update(t, uid, id, body);
            && r.1 != Err(DatabaseError(UniqueViolation))
            && (r.1.Ok? ==>
                  && id.Some? && BodyFits(body) && !NullsRequired(body)
                  && var i := FindOwned(t, uid, id.value);
                  && 0 <= i
                  && r.1.value == Merged(t[i], body)
                  && r.1.value.id == t[i].id && r.1.value.userId == t[i].userId
                  && r.0 == t[i := r.1.value])
  {
    if |body| == 0 || !KeysAreColumns(body) {
    } else if UpdateBindError(body, uid, id).Some? {
      var e := UpdateBindError(body, uid, id).value;
      assert e != UniqueViolation;
    } else {
      var i := FindOwned(t, uid, id.value);
      if i >= 0 && !NullsRequired(body) {
        MergeKeepsKeys(t[i], body);
      }
    }
  }

  /** A merge of a body naming neither key column keeps the row's id and owner. */
  lemma MergeKeepsKeys(row: Row, body: Body)
    requires BodyFits(body) && !NullsRequired(body)
    requires Lookup(body, "id").None? && Lookup(body, "user_id").None?
    ensures Merged(row, body).id == row.id && Merged(row, body).userId == row.userId
  {
  }

  /**
   * A field of a body the update schema accepted, under a key the schema
   * checks, names a column whose type takes its value unless a text holds
   * U+0000; with title and description free of it, the value binds.
   */
  lemma ValidatedFieldFits(body: Body, f: Field)
    requires DistinctKeys(body) && TaskSchema.UpdateBodyValid(body)
    requires f in body && f.key in TaskSchema.SchemaKeys
    ensures ColumnNamed(f.key).Some?
    ensures FieldInput(f).Ok? || FieldInput(f) == Err(CharacterNotInRepertoire)
    ensures TextsEncode(body) ==> FieldInput(f).Ok?
  {
    SchemaKeysAreColumns(f.key);
    var j :| 0 <= j < |body| && body[j] == f;
    DistinctLookup(body, j);
    ValidatedValueFits(f.key, Lookup(body, f.key).value, Lookup(body, "title"), Lookup(body, "description"),
                       Lookup(body, "completed"));
  }

  /** The value under one of the schema's keys, given the schema's verdict on the three values. */
  lemma ValidatedValueFits(key: string, v: Json, title: Prop, description: Prop, completed: Prop)
    requires key in TaskSchema.SchemaKeys
    requires key == "title" ==> title == Some(v)
    requires key == "description" ==> description == Some(v)
    requires key == "completed" ==> completed == Some(v)
    requires Zod.StringFieldOk(title, false, TaskSchema.TitleMin, TaskSchema.TitleMax)
    requires Zod.StringFieldOk(description, false, 0, TaskSchema.DescriptionMax)
    requires TaskSchema.BooleanFieldOk(completed)
    ensures ColumnNamed(key).Some?
    ensures var r := Input(ColumnType(ColumnNamed(key).value), DriverParam(v));
            && (r.Ok? || r == Err(CharacterNotInRepertoire))
            && (Encodes(PropParam(title)) && Encodes(PropParam(description)) ==> r.Ok?)
  {
    if key == "completed" {
      BoolInput(v.b);
    }
  }

  /** In a body with distinct keys, every field is what its key looks up. */
  lemma DistinctLookup(body: Body, j: int)
    requires DistinctKeys(body) && 0 <= j < |body|
    ensures Lookup(body, body[j].key) == Some(body[j].value)
  {
  }

  /**
   * A body the update schema accepted, restricted to its keys, sets no NOT
   * NULL column to `null`, and binds exactly when its title and
   * description hold no U+0000.
   */
  lemma ValidatedBodyFits(body: Body)
    requires DistinctKeys(body) && TaskSchema.UpdateBodyValid(body)
    ensures KeysAreColumns(AllowListed(body)) && !NullsRequired(AllowListed(body))
    ensures BodyFits(AllowListed(body)) <==> TextsEncode(body)
  {
    AllowListedDropsKeyColumns(body);
    ValidatedFieldsBind(body);
    if !TextsEncode(body) {
      KeptTextRefused(body);
    }
    KeptNulls(body);
  }

  /** The restriction sends `null` for no NOT NULL column. */
  lemma KeptNulls(body: Body)
    requires TaskSchema.UpdateBodyValid(body)
    ensures !NullsRequired(AllowListed(body))
  {
    AllowListedDropsKeyColumns(body);
    AllowListedLookup(body, "title");
    AllowListedLookup(body, "completed");
  }

  /** The restricted body's first refused value is 22021 when its title or description holds U+0000. */
  lemma ValidatedBindError(body: Body)
    requires DistinctKeys(body) && TaskSchema.UpdateBodyValid(body)
    ensures KeysAreColumns(AllowListed(body))
    ensures BodyBindError(AllowListed(body)) == if TextsEncode(body) then None else Some(CharacterNotInRepertoire)
  {
    ValidatedBodyFits(body);
    ValidatedFieldsBind(body);
    RefusedOnlyForEncoding(AllowListed(body));
  }

  /** Every kept field binds or is refused for U+0000; with none in the texts, all bind. */
  lemma ValidatedFieldsBind(body: Body)
    requires DistinctKeys(body) && TaskSchema.UpdateBodyValid(body)
    ensures var kept := AllowListed(body);
            forall i :: 0 <= i < |kept| ==>
              ColumnNamed(kept[i].key).Some? && (FieldInput(kept[i]).Ok? || FieldInput(kept[i]) == Err(CharacterNotInRepertoire))
    ensures TextsEncode(body) ==> BodyFits(AllowListed(body))
  {
    var kept := AllowListed(body);
    forall i | 0 <= i < |kept|
      ensures ColumnNamed(kept[i].key).Some?
      ensures FieldInput(kept[i]).Ok? || FieldInput(kept[i]) == Err(CharacterNotInRepertoire)
      ensures TextsEncode(body) ==> FieldInput(kept[i]).Ok?
    {
      assert kept[i] in kept;
      ValidatedFieldFits(body, kept[i]);
    }
  }

  /** A body whose values are refused only for U+0000 fails to bind with exactly that error. */
  lemma RefusedOnlyForEncoding(body: Body)
    requires forall i :: 0 <= i < |body| ==>
               ColumnNamed(body[i].key).Some? && (FieldInput(body[i]).Ok? || FieldInput(body[i]) == Err(CharacterNotInRepertoire))
    ensures KeysAreColumns(body)
    ensures BodyBindError(body) == if BodyFits(body) then None else Some(CharacterNotInRepertoire)
  {
  }

  /** A title or description holding U+0000 stays in the restriction, where its column refuses it. */
  lemma KeptTextRefused(body: Body)
    requires !TextsEncode(body)
    ensures !BodyFits(AllowListed(body))
  {
    var title := Lookup(body, "title");
    if !Encodes(PropParam(title)) {
      AllowListedLookup(body, "title");
      KeptValueRefused(AllowListed(body), "title", title.value);
    } else {
      var description := Lookup(body, "description");
      AllowListedLookup(body, "description");
      KeptValueRefused(AllowListed(body), "description", description.value);
    }
  }

  /** A body holding a value its column refuses does not fit. */
  lemma KeptValueRefused(body: Body, key: string, v: Json)
    requires ColumnNamed(key).Some? && Lookup(body, key) == Some(v)
    requires Input(ColumnType(ColumnNamed(key).value), DriverParam(v)).Err?
    ensures !BodyFits(body)
  {
    var i :| 0 <= i < |body| && body[i] == Field(key, v);
    assert FieldInput(body[i]).Err?;
  }

  /** Its merge takes each validated value as it is and keeps the key columns. */
  lemma ValidatedMerge(row: Row, body: Body)
    requires DistinctKeys(body) && TaskSchema.UpdateBodyValid(body)
    ensures BodyFits(AllowListed(body)) <==> TextsEncode(body)
    ensures !NullsRequired(AllowListed(body))
    ensures TextsEncode(body) ==>
              Merged(row, AllowListed(body)) ==
              Row(row.id,
                  TitleValue(Lookup(body, "title"), row.title),
                  DescriptionValue(Lookup(body, "description"), row.description),
                  CompletedValue(Lookup(body, "completed"), row.completed),
                  row.userId)
  {
    var kept := AllowListed(body);
    ValidatedBodyFits(body);
    if TextsEncode(body) {
      AllowListedDropsKeyColumns(body);
      AllowListedLookup(body, "title");
      AllowListedLookup(body, "description");
      AllowListedLookup(body, "completed");
      MergedValues(row, kept);
    }
  }

  function TitleValue(v: Prop, current: string): string {
    match v case Some(JStr(s)) => s case _ => current
  }

  function DescriptionValue(v: Prop, current: Option<string>): Option<string> {
    match v case Some(JStr(s)) => Some(s) case _ => current
  }

  function CompletedValue(v: Prop, current: bool): bool {
    match v case Some(JBool(b)) => b case _ => current
  }

  /**
   * PUT /tasks/:id with the body first reduced to the keys the schema
   * checks: nothing left is the handler's 400; otherwise the caller's task
   * keeps its id and its owner, every other row is untouched, and the
   * primary key can never be hit.
   */
  function UpdateAllowListed(t: Table, uid: int, id: Option<int>, body: Body): (r: (Table, Result<Row, Thrown>))
    requires UniqueIds(t) && DistinctKeys(body)
    ensures |AllowListed(body)| == 0 ==> r == (t, Err(NoFields))
    ensures r.1 != Err(DatabaseError(UniqueViolation))
    ensures r.1.Err? ==> r.0 == t
    ensures (&& |AllowListed(body)| > 0 && KeysAreColumns(AllowListed(body))
             && UpdateBindError(AllowListed(body), uid, id).Some?) ==>
              r == (t, Err(DatabaseError(UpdateBindError(AllowListed(body), uid, id).value)))
    // a body that binds, with an owner and id that bind, is a 404 exactly when the caller has no such task
    ensures |AllowListed(body)| > 0 && BodyFits(AllowListed(body)) && KeyError(uid, id).None? ==>
              (r.1 == Err(TaskNotFound) <==> FindOwned(t, uid, id.value) == -1)
    ensures (&& |AllowListed(body)| > 0 && BodyFits(AllowListed(body)) && !NullsRequired(AllowListed(body))
             && KeyError(uid, id).None? && FindOwned(t, uid, id.value) >= 0) ==> r.1.Ok?
    // a found task whose kept fields send `null` to a NOT NULL column is 23502
    ensures (&& |AllowListed(body)| > 0 && BodyFits(AllowListed(body)) && NullsRequired(AllowListed(body))
             && KeyError(uid, id).None? && FindOwned(t, uid, id.value) >= 0) ==>
              r == (t, Err(DatabaseError(NotNullViolation)))
    ensures r.1.Ok? ==>
              && id.Some? && BodyFits(AllowListed(body)) && !NullsRequired(AllowListed(body))
              && var i := FindOwned(t, uid, id.value);
              && 0 <= i
              && r.1.value == Merged(t[i], AllowListed(body))
              && r.1.value.id == t[i].id && r.1.value.userId == t[i].userId
              && r.0 == t[i := r.1.value]
    ensures UniqueIds(r.0)
  {
    var kept := AllowListed(body);
    if |kept| == 0 then (t, Err(NoFields))
    else
      AllowListedDropsKeyColumns(body);
      UpdateWithoutKeyColumns(t, uid, id, kept);
      Update(t, uid, id, kept)
  }

  /**
   * After validation, the restricted update writes exactly the validated
   * values into the caller's task, unless the title or description holds
   * U+0000, which the server refuses with 22021 and leaves the table as it was.
   */
  lemma ValidatedUpdate(t: Table, uid: int, id: int, body: Body)
    requires UniqueIds(t) && DistinctKeys(body) && TaskSchema.UpdateBodyValid(body)
    requires |AllowListed(body)| > 0 && KeyError(uid, Some(id)).None? && FindOwned(t, uid, id) >= 0
    ensures var i := FindOwned(t, uid, id);
            var row := t[i];
            TextsEncode(body) ==>
              UpdateAllowListed(t, uid, Some(id), body).1 ==
              Ok(Row(row.id,
                     TitleValue(Lookup(body, "title"), row.title),
                     DescriptionValue(Lookup(body, "description"), row.description),
                     CompletedValue(Lookup(body, "completed"), row.completed),
                     row.userId))
    ensures !TextsEncode(body) ==>
              UpdateAllowListed(t, uid, Some(id), body) == (t, Err(DatabaseError(CharacterNotInRepertoire)))
  {
    if TextsEncode(body) {
      ValidatedMerge(t[FindOwned(t, uid, id)], body);
    } else {
      ValidatedBindError(body);
      assert UpdateBindError(AllowListed(body), uid, Some(id)) == Some(CharacterNotInRepertoire);
    }
  }

  lemma ReplaceOwnRowKeepsOthers(t: Table, i: int, x: Row, uid: int, other: int)
    requires 0 <= i < |t| && t[i].userId == uid && x.userId == uid && uid != other
    ensures Owned(t[i := x], other) == Owned(t, other)
  {
    assert t[i := x] == t[..i] + [x] + t[i + 1..];
    OtherOwnersUnchanged(t, i, [x], uid, other);
  }

  /** The restricted update leaves every other account's tasks as they were. */
  lemma AllowListedKeepsOtherOwnersRows(t: Table, uid: int, id: Option<int>, body: Body, other: int)
    requires UniqueIds(t) && DistinctKeys(body) && other != uid
    ensures Owned(UpdateAllowListed(t, uid, id, body).0, other) == Owned(t, other)
  {
    var r := UpdateAllowListed(t, uid, id, body);
    if r.1.Ok? {
      ReplaceOwnRowKeepsOthers(t, FindOwned(t, uid, id.value), r.1.value, uid, other);
    }
  }
}

=== FILE: tasks.dfy ===
/**
 * The owner-scoped task routes (tasks.ts): list with pagination, get,
 * create and delete, each a function from the table and the caller's
 * identity to the table afterwards and the handler's result. Reads and
 * deletes filter on the caller's `user_id`; the numbers a handler sends
 * go through the parameter binding of the Postgres module first.
 */
module Tasks {
  import opened Wrappers
  import opened Js
  import opened Errors
  import opened TaskRows
  import opened Postgres
  import TaskSchema

  const DefaultPage := 1
  const DefaultLimit := 10
  const NoTasksFound := AppError("No tasks found", 404)
  const TaskNotFound := AppError("Task not found", 404)
  const DeletedMessage := "Task deleted successfully"

  /* ----- Pagination ----- */

  /**
   * `parseInt(arg) || fallback`, where `parsed` is what `parseInt` gave
   * (`None` for NaN): the fallback replaces NaN and 0, every other number,
   * negative ones included, is kept.
   */
  function IntOr(parsed: Option<int>, fallback: int): int {
    match parsed
    case Some(n) => if n != 0 then n else fallback
    case None => fallback
  }

  /** `IntOr` is JavaScript's `||` on the parsed number, NaN being falsy like every other falsy value. */
  lemma IntOrIsOr(parsed: Option<int>, fallback: int)
    ensures parsed.Some? ==>
              Or(Some(JNum(parsed.value)), Some(JNum(fallback))) == Some(JNum(IntOr(parsed, fallback)))
    ensures parsed.None? ==>
              forall nan: Prop :: !Truthy(nan) ==> Or(nan, Some(JNum(fallback))) == Some(JNum(IntOr(parsed, fallback)))
  {
  }

  function Offset(page: int, limit: int): int {
    (page - 1) * limit
  }

  /** The page and limit a list request runs with: never 0, defaulted to 1 and 10. */
  lemma PageParameters(pageArg: Option<int>, limitArg: Option<int>)
    ensures IntOr(pageArg, DefaultPage) != 0 && IntOr(limitArg, DefaultLimit) != 0
    // NaN and 0 fall back to the defaults
    ensures pageArg.None? || pageArg == Some(0) ==> IntOr(pageArg, DefaultPage) == DefaultPage
    ensures limitArg.None? || limitArg == Some(0) ==> IntOr(limitArg, DefaultLimit) == DefaultLimit
    // every other number, negative ones included, passes through
    ensures forall n :: n != 0 && pageArg == Some(n) ==> IntOr(pageArg, DefaultPage) == n
    ensures forall n :: n != 0 && limitArg == Some(n) ==> IntOr(limitArg, DefaultLimit) == n
    // the first page of a request without parameters starts at row 0 and holds up to 10 rows
    ensures pageArg.None? && limitArg.None? ==> Offset(IntOr(pageArg, DefaultPage), IntOr(limitArg, DefaultLimit)) == 0
  {
  }

  /* ----- List ----- */

  /** A result row with the `COUNT(*) OVER()` column. */
  datatype CountedRow = CountedRow(row: Row, totalCount: nat)

  /** The 200 answer `{ page, limit, data }`. */
  datatype Page = Page(page: int, limit: int, data: seq<CountedRow>)

  function Min(a: int, b: int): int { if a < b then a else b }

  /** `LIMIT limit OFFSET offset` on an ordered result. */
  function Window(s: seq<Row>, offset: nat, limit: nat): (w: seq<Row>)
    ensures |w| == if offset >= |s| then 0 else Min(limit, |s| - offset)
    ensures forall k :: 0 <= k < |w| ==> w[k] == s[offset + k]
  {
    if offset >= |s| then [] else s[offset .. Min(offset + limit, |s|)]
  }

  /** Attach the `COUNT(*) OVER()` column to each row. */
  function WithCount(rows: seq<Row>, total: nat): (data: seq<CountedRow>)
    ensures |data| == |rows|
    ensures forall k :: 0 <= k < |rows| ==> data[k] == CountedRow(rows[k], total)
  {
    seq(|rows|, k requires 0 <= k < |rows| => CountedRow(rows[k], total))
  }

  /** A window of an ascending sequence, with counts attached: ascending, drawn from it in order. */
  lemma CountedWindow(s: seq<Row>, offset: nat, limit: nat)
    requires StrictlyAscending(s)
    ensures var data := WithCount(Window(s, offset, limit), |s|);
            && (forall k :: 0 <= k < |data| ==> data[k].row in s && data[k].totalCount == |s|)
            && (forall i, j :: 0 <= i < j < |data| ==> data[i].row.id < data[j].row.id)
            && (forall k :: 0 <= k < |data| ==> data[k].row == s[offset + k])
  {
    var w := Window(s, offset, limit);
    var data := WithCount(w, |s|);
    forall k | 0 <= k < |data| ensures data[k].row in s && data[k].row == s[offset + k] {
      assert data[k].row == w[k] == s[offset + k];
    }
    forall i, j | 0 <= i < j < |data| ensures data[i].row.id < data[j].row.id {
      assert data[i].row == s[offset + i] && data[j].row == s[offset + j];
    }
  }

  /**
   * The rows `SELECT *, COUNT(*) OVER() ... WHERE user_id = uid ORDER BY id
   * LIMIT limit OFFSET offset` returns.
   */
  function PageRows(t: Table, uid: int, offset: nat, limit: nat): (data: seq<CountedRow>)
    requires UniqueIds(t)
    ensures |data| == if offset >= |Owned(t, uid)| then 0 else Min(limit, |Owned(t, uid)| - offset)
    // only the caller's rows, each carrying the caller's total
    ensures forall k :: 0 <= k < |data| ==>
              data[k].row in t && data[k].row.userId == uid && data[k].totalCount == |Owned(t, uid)|
    // ascending ids, and row k is the caller's (offset + k)-th in id order
    ensures forall i, j :: 0 <= i < j < |data| ==> data[i].row.id < data[j].row.id
    ensures forall k :: 0 <= k < |data| ==> data[k].row == Ordered(t, uid)[offset + k]
  {
    CountedWindow(Ordered(t, uid), offset, limit);
    WithCount(Window(Ordered(t, uid), offset, limit), |Ordered(t, uid)|)
  }

  /** The parameter types of the list query: `user_id = $1`, `LIMIT $2`, `OFFSET $3`. */
  const ListTypes := [Integer, BigInt, BigInt]

  /** The error binding `[userId, limit, offset]` raises, if any. */
  function ListBindError(uid: int, limit: int, offset: int): Option<string> {
    FirstError(ListTypes, [Some(uid), Some(limit), Some(offset)])
  }

  /**
   * GET /tasks. The three numbers are bound first: the owner to an
   * integer, limit and offset to bigints. PostgreSQL then rejects a
   * negative OFFSET, and after it a negative LIMIT, before any row is
   * read; an empty page is a 404, never an empty list.
   */
  function List(t: Table, uid: int, pageArg: Option<int>, limitArg: Option<int>): (r: Result<Page, Thrown>)
    requires UniqueIds(t)
    ensures var page := IntOr(pageArg, DefaultPage);
            var limit := IntOr(limitArg, DefaultLimit);
            var offset := Offset(page, limit);
            var bindError := ListBindError(uid, limit, offset);
            && (bindError.Some? ==> r == Err(DatabaseError(bindError.value)))
            && (bindError.None? && offset < 0 ==> r == Err(DatabaseError(NegativeOffset)))
            && (bindError.None? && offset >= 0 && limit < 0 ==> r == Err(DatabaseError(NegativeLimit)))
            && (r == Err(NoTasksFound) <==> bindError.None? && offset >= 0 && limit >= 0 && offset >= |Owned(t, uid)|)
            // a page that starts inside the caller's rows is answered with those rows
            && (bindError.None? && offset >= 0 && limit >= 0 && offset < |Owned(t, uid)| ==>
                  r == Ok(Page(page, limit, PageRows(t, uid, offset, limit))))
            && (r.Ok? ==>
                  && bindError.None? && offset >= 0 && limit >= 0
                  && r.value == Page(page, limit, PageRows(t, uid, offset, limit))
                  && |r.value.data| > 0)
  {
    var page := IntOr(pageArg, DefaultPage);
    var limit := IntOr(limitArg, DefaultLimit);
    var offset := Offset(page, limit);
    var args := [Some(uid), Some(limit), Some(offset)];
    ArgumentsBind(ListTypes, args);
    match BindAll(ListTypes, ArgParams(args))
    case Err(c) => Err(DatabaseError(c))
    case Ok(_) =>
      if offset < 0 then Err(DatabaseError(NegativeOffset))
      else if limit < 0 then Err(DatabaseError(NegativeLimit))
      else
        var data := PageRows(t, uid, offset, limit);
        if |data| == 0 then Err(NoTasksFound) else Ok(Page(page, limit, data))
  }

  /** Within the ranges of the parameter types, the binding never fails. */
  lemma ListBindsInRange(uid: int, limit: int, offset: int)
    ensures ListBindError(uid, limit, offset).None? <==>
              InRange(Integer, uid) && InRange(BigInt, limit) && InRange(BigInt, offset)
  {
    var args := [Some(uid), Some(limit), Some(offset)];
    assert Argument(ListTypes[0], args[0]) == NumberArgument(Integer, uid);
    assert Argument(ListTypes[1], args[1]) == NumberArgument(BigInt, limit);
    assert Argument(ListTypes[2], args[2]) == NumberArgument(BigInt, offset);
  }

  /**
   * Row k of a page is preceded, among all the caller's rows, by exactly
   * the `offset + k` rows with a smaller id.
   */
  lemma ListRank(t: Table, uid: int, pageArg: Option<int>, limitArg: Option<int>, k: int, x: Row)
    requires UniqueIds(t)
    requires List(t, uid, pageArg, limitArg).Ok?
    requires 0 <= k < |List(t, uid, pageArg, limitArg).value.data|
    requires x in t && x.userId == uid
    ensures var offset := Offset(IntOr(pageArg, DefaultPage), IntOr(limitArg, DefaultLimit));
            var before := Ordered(t, uid)[..offset + k];
            |before| == offset + k &&
            (x in before <==> x.id < List(t, uid, pageArg, limitArg).value.data[k].row.id)
  {
    var offset := Offset(IntOr(pageArg, DefaultPage), IntOr(limitArg, DefaultLimit));
    RowsBefore(Ordered(t, uid), offset + k, x);
  }

  /* ----- Get ----- */

  predicate Matches(row: Row, uid: int, id: int) {
    row.userId == uid && row.id == id
  }

  /** The index of the first row owned by `uid` with id `id`, or -1. */
  function FindOwned(t: Table, uid: int, id: int): (i: int)
    ensures -1 <= i < |t|
    ensures i >= 0 ==> Matches(t[i], uid, id) && forall k :: 0 <= k < i ==> !Matches(t[k], uid, id)
    ensures i == -1 <==> forall k :: 0 <= k < |t| ==> !Matches(t[k], uid, id)
  {
    if |t| == 0 then -1
    else if Matches(t[0], uid, id) then 0
    else
      var i := FindOwned(t[1..], uid, id);
      assert forall k :: 1 <= k < |t| ==> t[k] == t[1..][k - 1];
      if i == -1 then -1 else i + 1
  }

  /** The parameter types of `user_id = $1 AND id = $2`. */
  const KeyTypes := [Integer, Integer]

  /** The error binding `[userId, id]` raises, if any: the owner's first, then the id's. */
  function KeyError(uid: int, id: Option<int>): Option<string> {
    FirstError(KeyTypes, [Some(uid), id])
  }

  /** The key error spelled out: a number beyond the integer range, or NaN. */
  lemma KeyErrorCases(uid: int, id: Option<int>)
    ensures !InRange(Integer, uid) ==> KeyError(uid, id) == Some(NumberArgument(Integer, uid).error)
    ensures InRange(Integer, uid) && id.None? ==> KeyError(uid, id) == Some(InvalidTextRepresentation)
    ensures InRange(Integer, uid) && id.Some? && !InRange(Integer, id.value) ==>
              KeyError(uid, id) == Some(NumberArgument(Integer, id.value).error)
    ensures KeyError(uid, id).None? <==> InRange(Integer, uid) && id.Some? && InRange(Integer, id.value)
  {
    var args := [Some(uid), id];
    assert args[1..] == [id] && KeyTypes[1..] == [Integer];
    if InRange(Integer, uid) {
      assert KeyError(uid, id) == FirstError([Integer], [id]);
      assert [id][1..] == [] && [Integer][1..] == [];
    }
  }

  /**
   * Binds `[userId, id]` and, when both bind, yields the index of the
   * caller's row with that id, or -1.
   */
  function LocateOwned(t: Table, uid: int, id: Option<int>): (r: Result<int, string>)
    ensures KeyError(uid, id).Some? ==> r == Err(KeyError(uid, id).value)
    ensures KeyError(uid, id).None? ==> id.Some? && r == Ok(FindOwned(t, uid, id.value))
  {
    var args := [Some(uid), id];
    ArgumentsBind(KeyTypes, args);
    match BindAll(KeyTypes, ArgParams(args))
    case Err(c) => Err(c)
    case Ok(keys) =>
      assert args[1].Some?;
      Ok(FindOwned(t, keys[0].n, keys[1].n))
  }

  /** The owner and the id bind as themselves, or fail with the key error. */
  lemma KeysBind(uid: int, id: Option<int>)
    ensures KeyError(uid, id).Some? ==> BindAll(KeyTypes, ArgParams([Some(uid), id])) == Err(KeyError(uid, id).value)
    ensures KeyError(uid, id).None? ==>
              id.Some? && BindAll(KeyTypes, ArgParams([Some(uid), id])) == Ok([DInt(uid), DInt(id.value)])
  {
    var args := [Some(uid), id];
    ArgumentsBind(KeyTypes, args);
    if KeyError(uid, id).None? {
      var keys := BindAll(KeyTypes, ArgParams(args)).value;
      assert keys == [DInt(uid), DInt(id.value)];
    }
  }

  /** GET /tasks/:id: `SELECT * FROM tasks WHERE user_id = $1 AND id = $2`. */
  function Get(t: Table, uid: int, id: Option<int>): (r: Result<Row, Thrown>)
    ensures KeyError(uid, id).Some? ==> r == Err(DatabaseError(KeyError(uid, id).value))
    ensures KeyError(uid, id).None? ==>
              id.Some? && (r == Err(TaskNotFound) <==> forall x :: x in t ==> !Matches(x, uid, id.value))
    ensures r.Ok? ==> id.Some? && r.value in t && Matches(r.value, uid, id.value)
    // a matching row is answered as it is
    ensures KeyError(uid, id).None? && FindOwned(t, uid, id.value) >= 0 ==> r == Ok(t[FindOwned(t, uid, id.value)])
  {
    match LocateOwned(t, uid, id)
    case Err(c) => Err(DatabaseError(c))
    case Ok(i) => if i == -1 then Err(TaskNotFound) else Ok(t[i])
  }

  /** A task of another account is "not found" for the caller, never returned. */
  lemma OthersTasksAreNotFound(t: Table, uid: int, id: int, row: Row)
    requires UniqueIds(t)
    requires row in t && row.id == id && row.userId != uid
    ensures Get(t, uid, Some(id)).Err?
    ensures KeyError(uid, Some(id)).None? ==> Get(t, uid, Some(id)) == Err(TaskNotFound)
  {
    forall x | x in t ensures !Matches(x, uid, id) {
      var i :| 0 <= i < |t| && t[i] == row;
      var j :| 0 <= j < |t| && t[j] == x;
      if i != j {
        assert t[i].id != t[j].id;
      }
    }
  }

  /* ----- Create ----- */

  /** The title and description a body sends hold no U+0000, so the server's encoding check passes them. */
  predicate TextsEncode(body: Body) {
    Encodes(PropParam(Lookup(body, "title"))) && Encodes(PropParam(Lookup(body, "description")))
  }

  /** The INSERT's parameters in placeholder order: title, description, owner. */
  const CreateTypes := [TextType, TextType, Integer]

  function CreateParams(body: Body, uid: int): seq<Param> {
    [PropParam(Lookup(body, "title")), PropParam(Lookup(body, "description")), NumberParam(uid)]
  }

  /**
   * The INSERT's texts bind before its owner: a U+0000 in either text is
   * 22021; otherwise the owner binds exactly when it is in range.
   */
  lemma CreateBinds(title: Prop, description: Prop, uid: int)
    ensures var b := BindAll(CreateTypes, [PropParam(title), PropParam(description), NumberParam(uid)]);
            && (!Encodes(PropParam(title)) || !Encodes(PropParam(description)) ==> b == Err(CharacterNotInRepertoire))
            && (Encodes(PropParam(title)) && Encodes(PropParam(description)) ==>
                  if InRange(Integer, uid) then b.Ok? else b == Err(NumberArgument(Integer, uid).error))
  {
    NumberInput(Integer, uid);
    var ps := [PropParam(title), PropParam(description), NumberParam(uid)];
    BindAllStep(CreateTypes, ps);
    assert CreateTypes[1..] == [TextType, Integer] && ps[1..] == [PropParam(description), NumberParam(uid)];
    BindAllStep(CreateTypes[1..], ps[1..]);
    BindAllStep([Integer], [NumberParam(uid)]);
  }

  /**
   * POST /tasks on a body the create schema accepted: `INSERT ... (title,
   * description, user_id)` with the owner taken from the verified identity
   * and `newId` the value the id column's sequence supplies, which is of
   * the column's type; `completed` takes the column default, false. Title
   * and description bind to text columns, an absent description as NULL;
   * the owner binds to an integer.
   */
  function Create(t: Table, uid: int, body: Body, newId: int): (r: (Table, Result<Row, Thrown>))
    requires TaskSchema.CreateBodyValid(body)
    requires InRange(Integer, newId)
    ensures !TextsEncode(body) ==> r == (t, Err(DatabaseError(CharacterNotInRepertoire)))
    ensures TextsEncode(body) && !InRange(Integer, uid) ==> r == (t, Err(DatabaseError(NumberArgument(Integer, uid).error)))
    ensures TextsEncode(body) && InRange(Integer, uid) && HasId(t, newId) ==> r == (t, Err(DatabaseError(UniqueViolation)))
    ensures TextsEncode(body) && InRange(Integer, uid) && !HasId(t, newId) ==> r.1.Ok? && r.0 == t + [r.1.value]
    ensures r.1.Ok? ==>
              && r.1.value.id == newId
              && r.1.value.userId == uid
              && !r.1.value.completed
              && Lookup(body, "title") == Some(JStr(r.1.value.title))
              && (Lookup(body, "description").None? <==> r.1.value.description.None?)
              && (r.1.value.description.Some? ==> Lookup(body, "description") == Some(JStr(r.1.value.description.value)))
    ensures UniqueIds(t) ==> UniqueIds(r.0)
  {
    CreateBinds(Lookup(body, "title"), Lookup(body, "description"), uid);
    match BindAll(CreateTypes, CreateParams(body, uid))
    case Err(code) => (t, Err(DatabaseError(code)))
    case Ok(_) =>
      if HasId(t, newId) then (t, Err(DatabaseError(UniqueViolation)))
      else
        var title := match Lookup(body, "title") case Some(JStr(s)) => s case _ => "";
        var description := match Lookup(body, "description") case Some(JStr(d)) => Some(d) case _ => None;
        var row := Row(newId, title, description, false, uid);
        AppendKeepsUniqueIds(t, row);
        (t + [row], Ok(row))
  }

  /** What was created is what a fetch by id returns. */
  lemma CreateThenGet(t: Table, uid: int, body: Body, newId: int)
    requires UniqueIds(t)
    requires TaskSchema.CreateBodyValid(body)
    requires InRange(Integer, newId) && !HasId(t, newId)
    ensures TextsEncode(body) ==> Get(Create(t, uid, body, newId).0, uid, Some(newId)) == Create(t, uid, body, newId).1
  {
    var (t', created) := Create(t, uid, body, newId);
    KeyErrorCases(uid, Some(newId));
    if InRange(Integer, uid) && TextsEncode(body) {
      var i := FindOwned(t', uid, newId);
      assert Matches(t'[|t|], uid, newId);
      assert i == |t|;
    }
  }

  /* ----- Delete ----- */

  /** Removing the first row that matches keeps exactly the other rows, and their distinct ids. */
  lemma RemoveAt(t: Table, i: int, uid: int, n: int)
    requires UniqueIds(t)
    requires 0 <= i < |t| && Matches(t[i], uid, n)
    ensures forall x :: x in t[..i] + t[i + 1..] <==> x in t && !Matches(x, uid, n)
    ensures UniqueIds(t[..i] + t[i + 1..])
  {
    var t' := t[..i] + t[i + 1..];
    forall x ensures x in t' <==> x in t && !Matches(x, uid, n) {
      if x in t' {
        var k :| 0 <= k < |t'| && t'[k] == x;
        if k < i { assert t[k] == x; } else { assert t[k + 1] == x; }
        assert x != t[i];
      }
      if x in t && !Matches(x, uid, n) {
        var k :| 0 <= k < |t| && t[k] == x;
        if k < i { assert t'[k] == x; } else { assert k != i; assert t'[k - 1] == x; }
      }
    }
    forall a, b | 0 <= a < b < |t'| ensures t'[a].id != t'[b].id {
      var a' := if a < i then a else a + 1;
      var b' := if b < i then b else b + 1;
      assert t'[a] == t[a'] && t'[b] == t[b'];
    }
  }

  /** The 200 answer of a delete: `{ message, result }`, the result being the removed row. */
  datatype Deleted = Deleted(message: string, result: Row)

  /** DELETE /tasks/:id: `DELETE ... WHERE user_id = $1 AND id = $2 RETURNING *`. */
  function Delete(t: Table, uid: int, id: Option<int>): (r: (Table, Result<Deleted, Thrown>))
    requires UniqueIds(t)
    ensures KeyError(uid, id).Some? ==> r == (t, Err(DatabaseError(KeyError(uid, id).value)))
    ensures KeyError(uid, id).None? && (forall x :: x in t ==> !Matches(x, uid, id.value)) ==>
              r == (t, Err(TaskNotFound))
    ensures r.1.Ok? ==>
              && r.1.value.message == DeletedMessage
              && id.Some?
              && exists i :: 0 <= i < |t| && t[i] == r.1.value.result && Matches(t[i], uid, id.value) &&
                             r.0 == t[..i] + t[i + 1..]
    // rows survive exactly when they are not the caller's row with that id
    ensures KeyError(uid, id).None? ==> forall x :: x in r.0 <==> x in t && !Matches(x, uid, id.value)
    ensures r.1.Err? ==> r.0 == t
    ensures UniqueIds(r.0)
  {
    match LocateOwned(t, uid, id)
    case Err(c) => (t, Err(DatabaseError(c)))
    case Ok(i) =>
      if i == -1 then
        assert forall x :: x in t ==> !Matches(x, uid, id.value);
        (t, Err(TaskNotFound))
      else
        var t' := t[..i] + t[i + 1..];
        RemoveAt(t, i, uid, id.value);
        (t', Ok(Deleted(DeletedMessage, t[i])))
  }

  /* ----- Owner isolation ----- */

  lemma {:induction false} OwnedConcat(a: Table, b: Table, uid: int)
    ensures Owned(a + b, uid) == Owned(a, uid) + Owned(b, uid)
    decreases |a|
  {
    if |a| > 0 {
      var ab := a + b;
      assert ab[0] == a[0] && ab[1..] == a[1..] + b;
      OwnedConcat(a[1..], b, uid);
      if a[0].userId == uid {
        assert Owned(ab, uid) == [a[0]] + Owned(a[1..] + b, uid);
        assert Owned(a, uid) == [a[0]] + Owned(a[1..], uid);
        SeqAssoc([a[0]], Owned(a[1..], uid), Owned(b, uid));
      } else {
        assert Owned(ab, uid) == Owned(a[1..] + b, uid);
        assert Owned(a, uid) == Owned(a[1..], uid);
      }
    } else {
      assert a + b == b;
    }
  }

  lemma SeqAssoc(x: seq<Row>, y: seq<Row>, z: seq<Row>)
    ensures x + (y + z) == (x + y) + z
  {
  }

  /** Replacing or removing one of the caller's rows leaves every other account's rows as they were, in order. */
  lemma {:induction false} OtherOwnersUnchanged(t: Table, i: int, replacement: seq<Row>, uid: int, other: int)
    requires 0 <= i < |t|
    requires t[i].userId == uid && uid != other
    requires forall x :: x in replacement ==> x.userId == uid
    ensures Owned(t[..i] + replacement + t[i + 1..], other) == Owned(t, other)
  {
    assert t == t[..i] + [t[i]] + t[i + 1..];
    OwnedConcat(t[..i] + [t[i]], t[i + 1..], other);
    OwnedConcat(t[..i], [t[i]], other);
    OwnedConcat(t[..i] + replacement, t[i + 1..], other);
    OwnedConcat(t[..i], replacement, other);
    assert Owned([t[i]], other) == [] by {
      assert [t[i]][1..] == [];
    }
    FirstIsMember(Owned(replacement, other));
  }

  /** Deleting never removes or reorders another account's tasks. */
  lemma DeleteKeepsOtherOwnersRows(t: Table, uid: int, id: Option<int>, other: int)
    requires UniqueIds(t)
    requires other != uid
    ensures Owned(Delete(t, uid, id).0, other) == Owned(t, other)
  {
    var r := Delete(t, uid, id);
    if r.1.Ok? {
      var i :| 0 <= i < |t| && t[i] == r.1.value.result && Matches(t[i], uid, id.value) && r.0 == t[..i] + t[i + 1..];
      RemovalKeepsOthers(t, i, uid, other);
    }
  }

  /** Removing one of the caller's rows leaves every other account's rows as they were. */
  lemma RemovalKeepsOthers(t: Table, i: int, uid: int, other: int)
    requires 0 <= i < |t| && t[i].userId == uid && uid != other
    ensures Owned(t[..i] + t[i + 1..], other) == Owned(t, other)
  {
    var a, b := t[..i], t[i + 1..];
    assert t == (a + [t[i]]) + b;
    OwnedConcat(a + [t[i]], b, other);
    OwnedConcat(a, [t[i]], other);
    OwnedConcat(a, b, other);
    assert Owned([t[i]], other) == [] by {
      assert [t[i]][1..] == [];
    }
    assert Owned(a, other) + [] == Owned(a, other);
  }

  /** Creating adds a row for the caller only. */
  lemma CreateKeepsOtherOwnersRows(t: Table, uid: int, body: Body, newId: int, other: int)
    requires TaskSchema.CreateBodyValid(body)
    requires InRange(Integer, newId)
    requires other != uid
    ensures Owned(Create(t, uid, body, newId).0, other) == Owned(t, other)
  {
    var (t', r) := Create(t, uid, body, newId);
    if r.Ok? {
      OwnedConcat(t, [r.value], other);
      assert [r.value][1..] == [];
    }
  }
}

=== FILE: tasks_schema.dfy ===
/**
 * The task body schemas (tasks_schema.ts). A create body needs a title of
 * 3..100 UTF-16 units and may carry a description of at most 500; in an
 * update body every field is optional, `completed` must be a boolean when
 * present, and keys the schema does not name are let through.
 */
module TaskSchema {
  import opened Wrappers
  import opened Js
  import opened Zod

  const TitleMin: nat := 3
  const TitleMax: nat := 100
  const DescriptionMax: nat := 500

  const TitleTypeMessage := "Title must be a string"
  const TitleShortMessage := "Title must be at least 3 characters long"
  const TitleLongMessage := "Title must be less than 100 characters long"
  const CompletedTypeMessage := "Completed must be a boolean"

  /** The keys the update schema checks; the table's other columns are not among them. */
  const SchemaKeys: set<string> := {"title", "description", "completed"}

  predicate BooleanFieldOk(v: Prop) {
    v.None? || v.value.JBool?
  }

  predicate CreateBodyValid(body: Body) {
    && StringFieldOk(Lookup(body, "title"), true, TitleMin, TitleMax)
    && StringFieldOk(Lookup(body, "description"), false, 0, DescriptionMax)
  }

  predicate UpdateBodyValid(body: Body) {
    && StringFieldOk(Lookup(body, "title"), false, TitleMin, TitleMax)
    && StringFieldOk(Lookup(body, "description"), false, 0, DescriptionMax)
    && BooleanFieldOk(Lookup(body, "completed"))
  }

  /** The checks of `createTaskSchema`, in declaration order. */
  function CreateIssues(body: Body): (issues: seq<FieldIssue>)
    ensures |issues| == 0 <==> CreateBodyValid(body)
    ensures forall i :: 0 <= i < |issues| ==> issues[i].field in {"title", "description"}
  {
    var t := StringIssues("title", Lookup(body, "title"), true, Some(TitleTypeMessage),
                          TitleMin, Some(TitleShortMessage), TitleMax, Some(TitleLongMessage));
    var d := StringIssues("description", Lookup(body, "description"), false, None, 0, None, DescriptionMax, None);
    StringIssuesEmptyIff("title", Lookup(body, "title"), true, Some(TitleTypeMessage),
                         TitleMin, Some(TitleShortMessage), TitleMax, Some(TitleLongMessage));
    StringIssuesEmptyIff("description", Lookup(body, "description"), false, None, 0, None, DescriptionMax, None);
    t + d
  }

  function CompletedIssues(v: Prop): seq<FieldIssue> {
    if BooleanFieldOk(v) then [] else [FieldIssue("completed", InvalidType, Some(CompletedTypeMessage))]
  }

  /** The checks of `updateTaskSchema`, in declaration order. */
  function UpdateIssues(body: Body): (issues: seq<FieldIssue>)
    ensures |issues| == 0 <==> UpdateBodyValid(body)
    ensures forall i :: 0 <= i < |issues| ==> issues[i].field in SchemaKeys
  {
    UpdateFieldIssues(Lookup(body, "title"), Lookup(body, "description"), Lookup(body, "completed"))
  }

  /** The update checks on the three values the body holds under the schema's keys. */
  function UpdateFieldIssues(title: Prop, description: Prop, completed: Prop): (issues: seq<FieldIssue>)
    ensures |issues| == 0 <==>
              && StringFieldOk(title, false, TitleMin, TitleMax)
              && StringFieldOk(description, false, 0, DescriptionMax)
              && BooleanFieldOk(completed)
    ensures forall i :: 0 <= i < |issues| ==> issues[i].field in SchemaKeys
  {
    var t := StringIssues("title", title, false, None, TitleMin, Some(TitleShortMessage), TitleMax, Some(TitleLongMessage));
    var d := StringIssues("description", description, false, None, 0, None, DescriptionMax, None);
    StringIssuesEmptyIff("title", title, false, None, TitleMin, Some(TitleShortMessage), TitleMax, Some(TitleLongMessage));
    StringIssuesEmptyIff("description", description, false, None, 0, None, DescriptionMax, None);
    var c := CompletedIssues(completed);
    var all := t + d + c;
    assert forall i :: 0 <= i < |all| ==>
             all[i] == (if i < |t| then t[i] else if i < |t| + |d| then d[i - |t|] else c[i - |t| - |d|]);
    all
  }

  /** Adding a field under a key the body does not have leaves every other key's value alone. */
  lemma {:induction false} LookupAppend(body: Body, f: Field, key: string)
    requires key != f.key
    ensures Lookup(body + [f], key) == Lookup(body, key)
  {
    if |body| > 0 && body[0].key != key {
      assert (body + [f])[1..] == body[1..] + [f];
      LookupAppend(body[1..], f, key);
    }
  }

  /** The empty update body passes; rejecting it is left to the handler. A create body cannot be empty. */
  lemma EmptyBodies()
    ensures UpdateBodyValid([])
    ensures !CreateBodyValid([])
  {
  }

  /**
   * The update schema does not restrict the key set: any valid body stays
   * valid after gaining a field under a key the schema does not check,
   * whatever its value (the table's `user_id` and `id` columns included).
   */
  lemma UnknownKeysPassUpdate(body: Body, key: string, value: Json)
    requires UpdateBodyValid(body)
    requires key !in SchemaKeys
    ensures UpdateBodyValid(body + [Field(key, value)])
  {
    LookupAppend(body, Field(key, value), "title");
    LookupAppend(body, Field(key, value), "description");
    LookupAppend(body, Field(key, value), "completed");
  }

  /** Every valid create body is also a valid update body. */
  lemma CreateBodyIsUpdateBody(body: Body)
    requires CreateBodyValid(body)
    requires Lookup(body, "completed").None?
    ensures UpdateBodyValid(body)
  {
  }
}

=== FILE: validation.dfy ===
/**
 * The validation middleware (middleware/validate.ts): apply a schema to
 * `{ body, query, params }`; on success call `next()` and answer nothing,
 * keeping the request as it was (the parsed value is thrown away); on a
 * schema rejection answer 400 with one `{ field, message }` entry per issue,
 * in issue order; forward any other error to `next(e)` unchanged.
 */
module Validation {
  import opened Wrappers
  import opened Js
  import opened Errors
  import opened Zod

  /** One entry of the 400 response; `None` is a field that serialises as absent. */
  datatype FieldError = FieldError(field: Option<PathSegment>, message: string)

  datatype Outcome =
    | CallNext                          // next(): the route's handler runs on the unchanged request
    | BadRequest(errors: seq<FieldError>) // 400 { status: 'error', errors }
    | ForwardError(error: Thrown)       // next(e)

  predicate SegmentTruthy(seg: PathSegment) {
    match seg
    case Key(name) => name != ""
    case Index(i) => i != 0
  }

  /** `path[1] || path[0]` on an issue path. */
  function FieldOf(path: seq<PathSegment>): (f: Option<PathSegment>)
    ensures |path| >= 2 && SegmentTruthy(path[1]) ==> f == Some(path[1])
    ensures !(|path| >= 2 && SegmentTruthy(path[1])) && |path| >= 1 ==> f == Some(path[0])
    ensures |path| == 0 ==> f == None
  {
    if |path| >= 2 && SegmentTruthy(path[1]) then Some(path[1])
    else if |path| >= 1 then Some(path[0])
    else None
  }

  function ToFieldError(issue: Issue): FieldError {
    FieldError(FieldOf(issue.path), issue.message)
  }

  function Validate(schema: Request -> ParseOutcome, req: Request): (r: Outcome)
    ensures r == CallNext <==> schema(req) == Parsed
    ensures r.BadRequest? <==> schema(req).Rejected?
    ensures r.BadRequest? ==>
              |r.errors| == |schema(req).issues| &&
              forall i :: 0 <= i < |r.errors| ==>
                r.errors[i].message == schema(req).issues[i].message &&
                r.errors[i].field == FieldOf(schema(req).issues[i].path)
    ensures r.ForwardError? <==> schema(req).ParseThrew?
    ensures r.ForwardError? ==> r.error == schema(req).error
  {
    match schema(req)
    case Parsed => CallNext
    case Rejected(issues) => BadRequest(seq(|issues|, i requires 0 <= i < |issues| => ToFieldError(issues[i])))
    case ParseThrew(e) => ForwardError(e)
  }

  /**
   * For a body schema, the handler runs exactly when the body checks find
   * nothing, and every 400 entry names the offending body field itself
   * (the second path segment), one entry per failed check.
   */
  lemma {:induction false} BodySchemaOutcome(check: Body -> seq<FieldIssue>, defaults: IssueKind -> string, req: Request)
    requires forall i :: 0 <= i < |check(req.body)| ==> check(req.body)[i].field != ""
    ensures Validate(BodySchema(check, defaults), req) == CallNext <==> |check(req.body)| == 0
    ensures var r := Validate(BodySchema(check, defaults), req);
            r.BadRequest? ==>
              |r.errors| == |check(req.body)| &&
              forall i :: 0 <= i < |r.errors| ==> r.errors[i].field == Some(Key(check(req.body)[i].field))
  {
    var found := check(req.body);
    var r := Validate(BodySchema(check, defaults), req);
    if r.BadRequest? {
      var issues := BodySchema(check, defaults)(req).issues;
      forall i | 0 <= i < |r.errors|
        ensures r.errors[i].field == Some(Key(found[i].field))
      {
        assert issues[i] == ToIssue(found[i], defaults);
        assert SegmentTruthy(issues[i].path[1]);
      }
    }
  }
}

=== FILE: wrappers.dfy ===
/** The two failure-carrying datatypes every operation of the model returns. */
module Wrappers {

  /** `None` stands for JavaScript's `undefined` or a missing row. */
  datatype Option<+T> = None | Some(value: T)

  /** `Ok` carries what a handler produces, `Err` what it throws. */
  datatype Result<+R, +E> = Ok(value: R) | Err(error: E)
}

=== FILE: zod.dfy ===
/**
 * The part of the schema library the service relies on: a schema is applied
 * to the request triple `{ body, query, params }` and either parses, or
 * rejects with a list of issues, each with a path and a message, or throws.
 * The library's own default messages are not part of the model; they are a
 * parameter `defaults` from issue kind to text.
 */
module Zod {
  import opened Wrappers
  import opened Js
  import opened Errors

  datatype PathSegment = Key(name: string) | Index(index: int)

  datatype Issue = Issue(path: seq<PathSegment>, message: string)

  /** The object a schema is applied to. */
  datatype Request = Request(body: Body, query: map<string, string>, params: map<string, string>)

  datatype ParseOutcome =
    | Parsed
    | Rejected(issues: seq<Issue>)   // the library's validation error
    | ParseThrew(error: Thrown)      // anything else raised while parsing

  /** The kinds of check the schemas here perform. */
  datatype IssueKind = InvalidType | TooSmall | TooBig | InvalidFormat

  /** An issue raised by a check on one body field; `custom` is the schema's own message, if any. */
  datatype FieldIssue = FieldIssue(field: string, kind: IssueKind, custom: Option<string>)

  /** A body field issue as the library reports it: path `["body", field]`. */
  function ToIssue(fi: FieldIssue, defaults: IssueKind -> string): Issue {
    Issue([Key("body"), Key(fi.field)], match fi.custom case Some(m) => m case None => defaults(fi.kind))
  }

  /** `z.object({ body: z.object(...) })` given the body checks in declaration order. */
  function BodySchema(check: Body -> seq<FieldIssue>, defaults: IssueKind -> string): Request -> ParseOutcome {
    (req: Request) =>
      var found := check(req.body);
      if |found| == 0 then Parsed
      else Rejected(seq(|found|, i requires 0 <= i < |found| => ToIssue(found[i], defaults)))
  }

  /** Issues of a string field checked for type and for length bounds in UTF-16 units. */
  function StringIssues(field: string, v: Prop, required: bool, typeMessage: Option<string>,
                        min: nat, minMessage: Option<string>, max: nat, maxMessage: Option<string>): seq<FieldIssue>
  {
    match v
    case None => if required then [FieldIssue(field, InvalidType, typeMessage)] else []
    case Some(JStr(s)) =>
      (if Utf16Length(s) < min then [FieldIssue(field, TooSmall, minMessage)] else []) +
      (if Utf16Length(s) > max then [FieldIssue(field, TooBig, maxMessage)] else [])
    case Some(_) => [FieldIssue(field, InvalidType, typeMessage)]
  }

  /** A string field of bounded length: present as a string of `min..max` UTF-16 units, or absent when optional. */
  predicate StringFieldOk(v: Prop, required: bool, min: nat, max: nat) {
    match v
    case None => !required
    case Some(JStr(s)) => min <= Utf16Length(s) <= max
    case Some(_) => false
  }

  lemma StringIssuesEmptyIff(field: string, v: Prop, required: bool, typeMessage: Option<string>,
                             min: nat, minMessage: Option<string>, max: nat, maxMessage: Option<string>)
    ensures |StringIssues(field, v, required, typeMessage, min, minMessage, max, maxMessage)| == 0
            <==> StringFieldOk(v, required, min, max)
    ensures forall i :: 0 <= i < |StringIssues(field, v, required, typeMessage, min, minMessage, max, maxMessage)| ==>
              StringIssues(field, v, required, typeMessage, min, minMessage, max, maxMessage)[i].field == field
  {
  }
}
